=== FILE: README.md ===
# Microsoft Fabric assessment: the scoring core in Dafny

The Microsoft Fabric assessment tool is a React application. An
organisation answers a four-step questionnaire about its data estate:

- infrastructure, warehouse and BI tool;
- data types, data volume and real-time needs;
- Microsoft products and Power BI use;
- budget, compliance and data sovereignty.

From those answers the views compute:

- a composite "Fabric suitability" score out of 100;
- four category scores out of 10 (data integration, analytics, governance, culture);
- scores for four competing platforms;
- a three-year value proposition;
- a series of threshold-driven labels, colours, findings and recommendations.

This project models all of that arithmetic and every threshold selector as
pure Dafny functions over one immutable answer record. It also models the
questionnaire's state machine and the page flow of the application, and it
proves the properties those pieces promise:

- ranges;
- monotonicity;
- exact case partitions;
- agreement between the views that repeat the same bands;
- invariants kept by the form.

It also proves what the scorers can see of answers given through the form.
Several scoring rules test for strings that the form never offers.

Modules follow the source files:

| module | source file |
|---|---|
| `Assessment` | the `AssessmentData` record (`src/App.tsx`) |
| `Scores` | `src/utils/calculateScores.ts` |
| `App` | composite score and page flow, `src/App.tsx` |
| `Comparison` | `src/components/ComparisonSection.tsx` |
| `ValueCalculator` | `src/components/ValueCalculator.tsx` |
| `Report` | `src/components/ReportGenerator.tsx` |
| `ExecutiveSummary` | `src/components/ExecutiveSummary.tsx` |
| `RadarChart` | `src/components/RadarChart.tsx` |
| `ModernDashboard` | `src/components/ModernDashboard.tsx` |
| `ResultsDashboard` | `src/components/ResultsDashboard.tsx` |
| `DashboardLayout` | `src/components/DashboardLayout.tsx` |
| `AssessmentForm` | `src/components/AssessmentForm.tsx` |
| `CrossChecks` | properties that relate the form to the scorers |

Shared modules:

- `Numeric` holds `Math.min`, `Math.max`, the clamp and `Math.round`.
- `Bands` holds the tier, readiness and colour bands that several views repeat.
- `Wrappers` holds `Option` and `Result`.

Modelling choices:

- Arithmetic is exact `real` arithmetic. The constant 3.33 is the exact rational 333/100.
- `Math.round(x)` is `Floor(x + 0.5)`, which agrees with JavaScript for every real, negative ones included.
- Ratings are unbounded `int`s. Facts that need the 1-10 scale take it as a hypothesis (`RatingsInScale`).
- The optional `industry` string is not a field of the answer record. It is passed beside it as an `Option<string>`.
- A division by a non-positive three-year cost is an error case (`Result.Failure`). In the source a zero cost produces `Infinity` or `NaN`, and a negative cost produces a finite ROI. The model proves that neither can arise for a score in [0,100] and clamped parameters.

## Model

| member | source | states |
|---|---|---|
| Numeric.Clamp | src/utils/calculateScores.ts:56 | `Math.min(hi, Math.max(lo, x))` lies in [lo,hi], is x itself inside the range, and is the nearer bound outside it |
| Numeric.ClampMonotone | src/utils/calculateScores.ts:56 | clamping preserves order, which is what makes every clamped scorer monotone |
| Numeric.Round | src/components/ValueCalculator.tsx:99 | `Math.round` lands within half a unit of its argument (x − 0.5 < r ≤ x + 0.5) |
| Numeric.RoundMonotone | src/components/ValueCalculator.tsx:135 | rounding never reverses an order |
| Numeric.RoundWithin | src/components/ValueCalculator.tsx:165-166 | a value within half a unit of an integer range rounds into that range |
| Bands.FitTierOf | src/components/ReportGenerator.tsx:123-125 | the four fit tiers partition the score line at 80, 60 and 40, each tier exactly on its interval |
| Bands.FitTierMonotone | src/components/ReportGenerator.tsx:46-57 | a higher score never lands in a lower fit tier |
| Bands.ReadinessBandOf | src/components/ReportGenerator.tsx:59-85 | the three readiness bands partition the score line at 70 and 50 |
| Bands.ReadinessBandMonotone | src/components/ReportGenerator.tsx:59-85 | a higher score never lands in a lower readiness band |
| Bands.LevelOf | src/components/ModernDashboard.tsx:198-203 | a two-threshold level is High exactly at or above the upper threshold, Low exactly below the lower one, Middle in between |
| Bands.ColouringsMirror | src/components/ModernDashboard.tsx:199-202 | the good-when-high and bad-when-high colourings agree on amber and swap green and red |
| Bands.ScoreColour | src/components/ReportGenerator.tsx:117 | the score colour is the good-when-high colouring of the 70/40 level |
| Scores.WarehouseBonus | src/utils/calculateScores.ts:36-44 | 3 exactly for the two Azure warehouses, 2 exactly for SQL Server, 1 exactly for 'None' or '', 0 exactly for everything else |
| Scores.DataTypeBonus | src/utils/calculateScores.ts:47-50 | the bonus lies in [0,4], is 0 exactly when no scored type name is present and 4 exactly when all four are |
| Scores.DataScore | src/utils/calculateScores.ts:32-57 | the data score lies in [0,10] |
| Scores.BiToolBonus | src/utils/calculateScores.ts:63-70 | 3 exactly for Power BI, 2 exactly for Reporting Services or Excel, 1 exactly for 'None', 0 for any other tool |
| Scores.UsageTermCap | src/utils/calculateScores.ts:73 | the usage term min(3, u/3.33) reaches its cap 3 exactly from u = 10 on and stays below it up to 9 |
| Scores.UsageTermMonotone | src/utils/calculateScores.ts:73 | the usage term never decreases as Power BI use rises |
| Scores.AnalyticsScore | src/utils/calculateScores.ts:59-81 | the analytics score lies in [0,10] |
| Scores.AnalyticsMonotoneInUsage | src/utils/calculateScores.ts:59-81 | raising Power BI use never lowers the analytics score |
| Scores.ComplianceTermUniform | src/utils/calculateScores.ts:87-91 | the two-branch compliance term equals max(0, 2 − 0.5n) for every count, the zero branch included, and lies in [0,2] |
| Scores.ComplianceTermAntitone | src/utils/calculateScores.ts:87-91 | more compliance requirements never raise the compliance term |
| Scores.SovereigntyTermAntitone | src/utils/calculateScores.ts:94 | higher sovereignty needs never raise the sovereignty term |
| Scores.GovernanceInfraBonus | src/utils/calculateScores.ts:102-103 | the infrastructure bonus is 0 exactly when neither Data Factory nor Purview is listed |
| Scores.GovernanceScore | src/utils/calculateScores.ts:83-106 | the governance score lies in [0,10] |
| Scores.GovernanceAntitoneInCompliance | src/utils/calculateScores.ts:83-106 | a longer compliance list never raises the governance score |
| Scores.GovernanceAntitoneInSovereignty | src/utils/calculateScores.ts:83-106 | higher sovereignty needs never raise the governance score |
| Scores.CultureScore | src/utils/calculateScores.ts:108-125 | the culture score lies in [0,10] |
| Scores.CultureClampInert | src/utils/calculateScores.ts:112-124 | for non-negative ratings the raw culture sum is already in [0,10], so the clamp returns it unchanged |
| Scores.CultureMonotone | src/utils/calculateScores.ts:112-124 | more investments, more Power BI use, more time or more budget never lower the culture score |
| Scores.CalculateScores | src/utils/calculateScores.ts:11-30 | the four category scores each lie in [0,10] |
| Scores.PermutationKeepsMembers | src/utils/calculateScores.ts:11-30 | two lists with the same elements in another order have the same length and answer every membership test alike |
| Scores.DataIgnoresListOrder | src/utils/calculateScores.ts:32-57 | reordering the list answers leaves the data score unchanged |
| Scores.AnalyticsIgnoresListOrder | src/utils/calculateScores.ts:59-81 | reordering the list answers leaves the analytics score unchanged |
| Scores.GovernanceIgnoresListOrder | src/utils/calculateScores.ts:83-106 | reordering the list answers leaves the governance score unchanged |
| Scores.CultureIgnoresListOrder | src/utils/calculateScores.ts:108-125 | reordering the list answers leaves the culture score unchanged |
| Scores.ScoresIgnoreListOrder | src/utils/calculateScores.ts:11-30 | reordering any list answer leaves all four category scores unchanged |
| App.InvestmentPoints | src/App.tsx:44-47 | the investment points lie in [0,45], are 0 exactly when none of Azure, Power BI, Dynamics 365 and Microsoft 365 is listed, and 45 exactly when all four are |
| App.VolumeTier | src/App.tsx:56-58 | the volume term is one of 5, 10 and 15 |
| App.VolumeTierBoundaries | src/App.tsx:56-58 | the volume term is 15 exactly from 7 on, 10 exactly for 4 to 6 and 5 exactly up to 3 |
| App.FabricScore | src/App.tsx:39-64 | the composite score lies in [0,100] |
| App.FabricRaw | src/App.tsx:41-61 | for ratings on the 1-10 scale the unclamped composite lies in [8.5,108.5] |
| App.RawBounds | src/App.tsx:41-64 | for ratings on the 1-10 scale the raw composite lies in [8.5,108.5], so only the upper clamp can act |
| App.FabricMonotoneInUsage | src/App.tsx:50 | more Power BI use never lowers the composite |
| App.FabricMonotoneInRealTime | src/App.tsx:53 | higher real-time needs never lower the composite |
| App.FabricMonotoneInVolume | src/App.tsx:56-58 | a higher data volume never lowers the composite |
| App.FabricAntitoneInBudget | src/App.tsx:61 | a higher budget rating never raises the composite |
| App.AddingInvestmentNeverLowers | src/App.tsx:44-47 | appending any investment string never lowers the composite |
| App.OnlyScoredInvestmentsCount | src/App.tsx:44-47 | two investment lists that agree on Azure, Power BI, Dynamics 365 and Microsoft 365 give the same composite |
| App.ScenarioA | src/App.tsx:41-64 | Azure and Power BI, usage 8, real-time 5, volume 8 and budget 3 score 79 |
| App.ScenarioB | src/App.tsx:41-64 | no investments, usage 1, real-time 1, volume 1 and budget 10 score 8.5 |
| App.Step | src/App.tsx:35-101 | completing stores the answers and their composite and shows the results; continue moves results to comparison and comparison to report; restart returns to the questionnaire; a view that is not shown reacts to nothing |
| App.RunKeepsInvariant | src/App.tsx:35-101 | along any sequence of events, every page past the questionnaire has answers, and the stored score is their composite in [0,100] |
| App.FullCycle | src/App.tsx:66-101 | complete, continue, continue, restart goes around the four pages back to the questionnaire with the answers kept |
| Comparison.AwsScore | src/components/ComparisonSection.tsx:21-26 | the AWS score lies in [65,100] |
| Comparison.SnowflakeScore | src/components/ComparisonSection.tsx:29-34 | the Snowflake score lies in [70,100] |
| Comparison.DatabricksScore | src/components/ComparisonSection.tsx:37-42 | the Databricks score lies in [60,95] |
| Comparison.OnPremiseScore | src/components/ComparisonSection.tsx:45-50 | the on-premise score lies in [30,80] |
| Comparison.AwsInvestmentRule | src/components/ComparisonSection.tsx:25 | AWS gains 10 points, up to its cap, exactly when fewer than two Microsoft investments are listed |
| Comparison.OnPremiseBudgetRule | src/components/ComparisonSection.tsx:49 | on-premise loses exactly 10 points exactly when the budget rating is below 4 |
| Comparison.DatabricksDataTypeRule | src/components/ComparisonSection.tsx:38-39 | each of the two full data-type strings adds 10 points to Databricks, independently of the other |
| Comparison.CompetitorScores | src/components/ComparisonSection.tsx:52-117 | exactly four entries in the order AWS, Snowflake, Databricks, On-Premise, each with its scorer's score in [0,100] and four strengths and four weaknesses |
| Comparison.FindByName | src/components/ComparisonSection.tsx:125 | the lookup finds the first entry with the name, and finds none exactly when no entry has it |
| Comparison.SelectedCompetitor | src/components/ComparisonSection.tsx:124-126 | the selection is an entry of the list: the one with the chosen name when there is one, the first entry otherwise |
| Comparison.SelectingKnownName | src/components/ComparisonSection.tsx:120-126 | choosing any of the four names selects that competitor's own entry |
| Comparison.VerdictOf | src/components/ComparisonSection.tsx:132-140 | exactly one verdict holds: Fabric much better above s + 15, somewhat better in (s, s + 15], competitor much better below s − 15, similar otherwise |
| Comparison.VerdictMargins | src/components/ComparisonSection.tsx:132-138 | the margins are strict: equal scores are similar, a lead of exactly 15 is only somewhat better, a deficit of exactly 15 is still similar |
| Comparison.VerdictSymmetry | src/components/ComparisonSection.tsx:132-137 | Fabric is much better than a competitor exactly when, with the roles swapped, the competitor is much better |
| Comparison.ComparisonRecommendation | src/components/ComparisonSection.tsx:129-141 | the recommendation is the verdict text for the selected competitor's score and name |
| ValueCalculator.MultiplierFor | src/components/ValueCalculator.tsx:32-72 | a known industry selects its table row; an absent or unknown one selects the general row; every row lies in the table's ranges |
| ValueCalculator.ClampParam | src/components/ValueCalculator.tsx:216-243 | a parameter input is kept when it parses to at least 1 and becomes 1 otherwise |
| ValueCalculator.ParamsAlwaysValid | src/components/ValueCalculator.tsx:20-22 | the initial parameters and every clamped input are at least 1 |
| ValueCalculator.CostSavingsPercent | src/components/ValueCalculator.tsx:78-96 | for a score in [0,100]: a legacy warehouse gives a rate in [0.25,0.60], a competitor warehouse a rate in [0.15,0.45], any non-legacy warehouse at most 0.45, and a warehouse in neither list a rate in [0.10,0.30] |
| ValueCalculator.CostSavingsPercentRange | src/components/ValueCalculator.tsx:78-96 | for a score in [0,100] the savings rate lies in [0.10,0.60] |
| ValueCalculator.CostSavings | src/components/ValueCalculator.tsx:99 | the savings are within half a unit of costs × rate × industry multiplier |
| ValueCalculator.CostSavingsBounds | src/components/ValueCalculator.tsx:99 | rounded savings lie between 0 and the current annual costs |
| ValueCalculator.BaseMonths | src/components/ValueCalculator.tsx:102-112 | before the multiplier the timeline lies between 7 and 17 months |
| ValueCalculator.TimeToValue | src/components/ValueCalculator.tsx:115-118 | the time to value is at least 3 months: the rounded scaled timeline when that is 3 or more, 3 otherwise |
| ValueCalculator.TimeToValueTableRange | src/components/ValueCalculator.tsx:102-118 | with any table multiplier the time to value lies between 6 and 22 months |
| ValueCalculator.HoursPerEmployee | src/components/ValueCalculator.tsx:122-131 | 52 hours exactly from score 80, 26 exactly in [60,80), 13 exactly below 60 |
| ValueCalculator.ProductivityHours | src/components/ValueCalculator.tsx:134-135 | the hours are within half a unit of size × 0.3 × hours per employee × industry multiplier |
| ValueCalculator.ProductivityMonotone | src/components/ValueCalculator.tsx:134-135 | productivity hours are non-negative and never decrease as organisation size or score grow |
| ValueCalculator.ThreeYearCost | src/components/ValueCalculator.tsx:145-147 | the three-year cost is exactly the implementation cost (half the annual costs) when savings equal the costs, and more than that when savings fall short |
| ValueCalculator.ThreeYearCostPositive | src/components/ValueCalculator.tsx:145-147 | with costs of at least 1 and savings within the costs, the three-year cost is at least half the annual costs, so it is positive |
| ValueCalculator.ThreeYearROI | src/components/ValueCalculator.tsx:141-151 | the return fails exactly when the three-year cost is not positive, and never fails for valid costs and savings |
| ValueCalculator.RiskReduction | src/components/ValueCalculator.tsx:154-162 | the risk reduction lies in [5,10] |
| ValueCalculator.DataDrivenBenefitScore | src/components/ValueCalculator.tsx:165-166 | the benefit score lies in [1,10] |
| ValueCalculator.BenefitScoreRangeAndMonotone | src/components/ValueCalculator.tsx:165-166 | for scores in [0,100] the benefit score lies in [2,7] and never decreases with the score |
| ValueCalculator.ValuePropositionSucceeds | src/components/ValueCalculator.tsx:30-176 | for a score in [0,100] and valid parameters, savings stay within costs, the return is defined, the timeline is 6-22 months and productivity is non-negative |
| ValueCalculator.CalculateValueProposition | src/components/ValueCalculator.tsx:30-176 | for a score in [0,100] and valid parameters the metrics exist, with savings within costs, timeline 6-22, hours non-negative, risk 5-10 and benefit 2-7 |
| ValueCalculator.CostOfInaction | src/components/ValueCalculator.tsx:189-193 | the cost of inaction is 0 before any metrics exist and non-negative for non-negative metrics and rate |
| Report.GetRecommendation | src/components/ReportGenerator.tsx:46-57 | the recommendation is the one text of the score's fit tier |
| Report.TierLabel | src/components/ReportGenerator.tsx:123-125 | the tier heading is the title of the score's fit tier |
| Report.TierTitlesDistinct | src/components/ReportGenerator.tsx:123-125 | distinct tiers have distinct headings, so the heading identifies the tier |
| Report.LabelMatchesRecommendation | src/components/ReportGenerator.tsx:46-125 | the heading names a tier exactly when the score is in it, and then the recommendation is that tier's |
| Report.NextStepsFor | src/components/ReportGenerator.tsx:59-85 | every band's next-step list has exactly five items |
| Report.GetNextSteps | src/components/ReportGenerator.tsx:59-85 | the next steps are the five of the score's readiness band |
| Report.ReportBandsMonotone | src/components/ReportGenerator.tsx:46-85 | raising the score never lowers the rank of its fit tier or of its readiness band |
| Report.BadgeColour | src/components/ReportGenerator.tsx:117 | the badge is green from 70, amber from 40, red below, in the tool's hex values |
| Report.KeyFindings | src/components/ReportGenerator.tsx:196-230 | each finding is chosen exactly by its condition: investments > 2, volume > 7 then > 4, real-time > 7, compliance > 3, sovereignty note exactly above 8 |
| Report.ComplianceParagraph | src/components/ReportGenerator.tsx:225-230 | the compliance paragraph starts with its finding and is longer exactly when the sovereignty note is appended |
| ExecutiveSummary.TotalScore | src/components/ExecutiveSummary.tsx:15 | for category scores in [0,10] the total lies in [0,40] |
| ExecutiveSummary.OverallPercentage | src/components/ExecutiveSummary.tsx:15-17 | for category scores in [0,10] the rounded percentage lies in [0,100] |
| ExecutiveSummary.RoundWithinWhenValid | src/components/ExecutiveSummary.tsx:15-17 | for category scores in [0,10], round(total/40·100) lies in [0,100] |
| ExecutiveSummary.GetReadinessLevel | src/components/ExecutiveSummary.tsx:20-24 | High exactly from 80, Medium exactly in [60,80), Low exactly below 60 |
| ExecutiveSummary.FirstMax | src/components/ExecutiveSummary.tsx:37 | the index holds a maximum, and every earlier entry is strictly smaller: the first maximum |
| ExecutiveSummary.FirstMin | src/components/ExecutiveSummary.tsx:48 | the index holds a minimum, and every earlier entry is strictly larger: the first minimum |
| ExecutiveSummary.ScoresInOrder | src/components/ExecutiveSummary.tsx:30-35 | the four scores in the fixed category order |
| ExecutiveSummary.TopStrength | src/components/ExecutiveSummary.tsx:29-38 | the top strength has the highest score, and no earlier category in the order has it too: the stable sort's first entry |
| ExecutiveSummary.TopOpportunity | src/components/ExecutiveSummary.tsx:40-49 | the top opportunity has the lowest score, and no earlier category in the order has it too |
| ExecutiveSummary.AllEqualPicksFirst | src/components/ExecutiveSummary.tsx:29-49 | with all four scores equal, both choices are data integration |
| ExecutiveSummary.GetRoiEstimate | src/components/ExecutiveSummary.tsx:55-59 | high exactly from 75, moderate exactly in [50,75), long-term exactly below 50 |
| ExecutiveSummary.IndexOf | src/components/ExecutiveSummary.tsx:30-35 | every category has its position in the fixed order |
| ExecutiveSummary.ImproveIfWeak | src/components/ExecutiveSummary.tsx:65-79 | one improvement item exactly when the category scores below 7, none otherwise |
| ExecutiveSummary.WeakCategoriesInOrder | src/components/ExecutiveSummary.tsx:65-79 | the improvement items are at most four, one exactly for each category below 7, never the fallback, and in strictly increasing category order |
| ExecutiveSummary.KeyRecommendations | src/components/ExecutiveSummary.tsx:62-82 | one to four items; an improvement for a category exactly when it scores below 7, in category order; the single fallback exactly when none does |
| RadarChart.EcosystemScore | src/components/RadarChart.tsx:186-199 | the ecosystem axis lies in [0,10] |
| RadarChart.EcosystemRaw | src/components/RadarChart.tsx:186-196 | the raw ecosystem value is half the Power BI use plus between 0 and 5 points for investments |
| RadarChart.EcosystemClampInert | src/components/RadarChart.tsx:186-199 | for Power BI use in [0,10] the raw ecosystem value is already in [0,10], so the clamp returns it unchanged |
| RadarChart.EcosystemMonotone | src/components/RadarChart.tsx:190-196 | more Power BI use or one more investment never lowers the ecosystem axis |
| RadarChart.ReadinessRaw | src/components/RadarChart.tsx:202-217 | on the 1-10 scale the raw readiness value lies in [−2,12], so both ends of the clamp can act |
| RadarChart.ImplementationReadiness | src/components/RadarChart.tsx:202-221 | the readiness axis lies in [0,10] |
| RadarChart.ReadinessMonotone | src/components/RadarChart.tsx:206-214 | more budget or more time never lowers readiness; more compliance requirements never raise it |
| RadarChart.RadarValues | src/components/RadarChart.tsx:74-80 | the six plotted values each lie in [0,10] |
| ModernDashboard.FallbackScores | src/components/ModernDashboard.tsx:25-30 | for ratings on the 1-10 scale the fallback scores lie in [0,5] |
| ModernDashboard.FallbackGovernanceAntitone | src/components/ModernDashboard.tsx:28 | higher sovereignty needs never raise the fallback governance score |
| ModernDashboard.RiskLevel | src/components/ModernDashboard.tsx:34-39 | Low exactly from 7.5, Medium exactly in [5,7.5), High exactly in [2.5,5), Extreme exactly below 2.5 |
| ModernDashboard.RiskAntitone | src/components/ModernDashboard.tsx:34-39 | a higher score never yields a higher risk |
| ModernDashboard.AdviceFor | src/components/ModernDashboard.tsx:134-182 | a category is told to prioritise exactly when it scores below 6 |
| ModernDashboard.RiskTable | src/components/ModernDashboard.tsx:117-188 | four rows, one per category in display order, each showing that category's score, the risk badge of that score and the advice for that score |
| ModernDashboard.RiskAndAdviceAgree | src/components/ModernDashboard.tsx:34-134 | a low-risk row is never told to prioritise, and a high- or extreme-risk row always is |
| ModernDashboard.HeadlineTier | src/components/ModernDashboard.tsx:91-93 | the headline is the title of the score's fit tier, as in the report |
| ModernDashboard.Caption | src/components/ModernDashboard.tsx:96-100 | the caption is the text of the score's 70/50 readiness band |
| ModernDashboard.GaugeColour | src/components/ModernDashboard.tsx:80 | the ring is green exactly from 70, amber exactly in [40,70), red exactly below 40 |
| ModernDashboard.DashOffset | src/components/ModernDashboard.tsx:83 | the unfilled arc lies in [0,283] for scores in [0,100], is 0 exactly at 100 and 283 exactly at 0 |
| ModernDashboard.DashOffsetAntitone | src/components/ModernDashboard.tsx:83 | a higher score never leaves more of the ring unfilled |
| ModernDashboard.ComplexityColour | src/components/ModernDashboard.tsx:198-203 | normal mode is bad-when-high on 7/4; reversed mode is good-when-high on the same thresholds |
| ModernDashboard.ReversingSwapsRedAndGreen | src/components/ModernDashboard.tsx:198-203 | reversing swaps red and green and keeps amber |
| ModernDashboard.VolumeWord | src/components/ModernDashboard.tsx:216 | the data-complexity word is the 7/4 level of the volume |
| ModernDashboard.TimelineWord | src/components/ModernDashboard.tsx:232 | the time-constraint word is the 7/4 level of the timeline rating |
| ModernDashboard.BudgetWord | src/components/ModernDashboard.tsx:240 | the budget word is the 7/4 level of the budget rating |
| ModernDashboard.EcosystemWord | src/components/ModernDashboard.tsx:224 | the technical-fit word is the 3/1 level of the investment count |
| ModernDashboard.EcosystemBadgeColourAsWritten | src/components/ModernDashboard.tsx:223 | the technical-fit badge as written is coloured on the 7/4 level of the investment count |
| ModernDashboard.EcosystemBadgeDisagrees | src/components/ModernDashboard.tsx:223-224 | three investments are labelled "Strong" on a red badge |
| ModernDashboard.EcosystemBadgeColour | src/components/ModernDashboard.tsx:223-224 | the corrected badge is green, amber or red exactly when the word is Strong, Moderate or Limited |
| ModernDashboard.ComplexityBadges | src/components/ModernDashboard.tsx:213-241 | the four badges as drawn: volume red exactly from 7; technical fit worded on the 3/1 investment scale but coloured good-when-high on 7/4, so green only from 7 investments; timeline and budget green exactly from 7; the volume, timeline and budget badges are amber exactly when their word is the middle one and red or green exactly when it is the matching extreme |
| ModernDashboard.IntendedComplexityBadges | src/components/ModernDashboard.tsx:213-241 | the panel with the technical-fit badge coloured on its word's scale: the other three badges and the word unchanged, and every badge's colour agreeing with its word |
| ModernDashboard.BadgePanelsDifferOnlyMidway | src/components/ModernDashboard.tsx:223-224 | the drawn and the intended panels coincide exactly when there are no investments or at least seven |
| ModernDashboard.TimeframeEstimate | src/components/ModernDashboard.tsx:248-252 | 3-6 months exactly with more than two investments and Power BI use above 7; 9-12 months exactly with none; 6-9 months otherwise |
| ModernDashboard.TimeframeMonotone | src/components/ModernDashboard.tsx:248-252 | more investments and more Power BI use never lengthen the estimate |
| ModernDashboard.TimeframeColour | src/components/ModernDashboard.tsx:247 | the estimate is never amber: green exactly with more than two investments |
| ModernDashboard.ShortestTimeframeIsGreen | src/components/ModernDashboard.tsx:247-249 | the 3-6 month estimate is always shown in green |
| ModernDashboard.ComplianceBarColour | src/components/ModernDashboard.tsx:302 | colouring 1.25·n on 7/4 is the bad-when-high colouring of the count on 6/4 |
| ModernDashboard.EcosystemBarColour | src/components/ModernDashboard.tsx:318 | colouring 10 − 2.5·n on 7/4 is the good-when-high colouring of the count on 3/2 |
| ModernDashboard.EcosystemBarWidthAsWritten | src/components/ModernDashboard.tsx:317 | the ecosystem bar as written stays within its track exactly up to four investments |
| ModernDashboard.EcosystemBarOverflows | src/components/ModernDashboard.tsx:317 | five investments draw the bar at 125%, eight at 200% |
| ModernDashboard.EcosystemBarWidth | src/components/ModernDashboard.tsx:317 | the corrected bar lies in [0,100], is full exactly from four investments and agrees with the source up to four |
| ModernDashboard.MigrationBars | src/components/ModernDashboard.tsx:265-320 | the four bars as drawn: volume and real-time widths in [10,100] on the 1-10 scale, red exactly from 7; compliance red exactly from 6 and within its track up to 8; ecosystem width non-negative and within its track exactly up to four investments, green exactly from 3 |
| ModernDashboard.IntendedMigrationBars | src/components/ModernDashboard.tsx:265-320 | the bars with the ecosystem bar capped: the first three bars and the ecosystem colour unchanged, the ecosystem width in [0,100] and full exactly from four, and the panel equal to the drawn one exactly up to four investments |
| ResultsDashboard.CostEfficiency | src/components/ResultsDashboard.tsx:42 | cost efficiency is at least 1 and is 11 minus the budget rating on the scale |
| ResultsDashboard.CostEfficiencyStrictlyAntitone | src/components/ResultsDashboard.tsx:42 | on the scale a higher budget rating gives strictly lower cost efficiency |
| ResultsDashboard.EcosystemFit | src/components/ResultsDashboard.tsx:36 | the ecosystem axis is at most 10, non-negative for non-negative Power BI use, and full from seven investments |
| ResultsDashboard.SecurityCompliance | src/components/ResultsDashboard.tsx:44 | the security axis is at most 10, at least 5 for non-negative sovereignty needs, and full from five compliance requirements |
| ResultsDashboard.IntegrationEase | src/components/ResultsDashboard.tsx:46 | the integration axis lies in [2,10] and is full exactly from eight investments |
| ResultsDashboard.CapabilityValues | src/components/ResultsDashboard.tsx:34-47 | six values in axis order; on the 1-10 scale each lies in [0,10], security is at least 5.5 and integration at least 2; volume and real-time are plotted as answered |
| ResultsDashboard.CapabilityMonotoneInInvestments | src/components/ResultsDashboard.tsx:36-46 | one more investment never lowers any radar value, and strictly raises integration ease below eight investments |
| ResultsDashboard.GaugeSegments | src/components/ResultsDashboard.tsx:90 | the two doughnut segments are the score and its complement, summing to 100 and non-negative for scores in [0,100] |
| ResultsDashboard.GaugeFills | src/components/ResultsDashboard.tsx:91-94 | the score segment is the hex of the 70/40 score colour (green from 70, amber from 40, red below) and the remainder is grey |
| ResultsDashboard.ShownScore | src/components/ResultsDashboard.tsx:141 | the number shown is within half a point of the score and in [0,100] when the score is |
| ResultsDashboard.ScoreLabel | src/components/ResultsDashboard.tsx:146-148 | the label is the sentence-case phrase of the score's fit tier |
| ResultsDashboard.FactorIf | src/components/ResultsDashboard.tsx:162-176 | a bullet is listed exactly when its condition holds |
| ResultsDashboard.KeyFactors | src/components/ResultsDashboard.tsx:162-177 | each bullet appears exactly when its condition holds (investments present, Power BI above 7, volume above 7, real-time above 7, budget below 5), at most five in all |
| ResultsDashboard.LabelAgreesWithRecommendation | src/components/ResultsDashboard.tsx:117-148 | the label names a tier exactly when the score is in it, and then the recommendation is that tier's |
| DashboardLayout.UpperAscii | src/components/DashboardLayout.tsx:45 | upper-casing leaves no lower-case ASCII letter, shifts a lower-case one by 32 and keeps every other character |
| DashboardLayout.Capitalise | src/components/DashboardLayout.tsx:45 | capitalising keeps the length, upper-cases the first character and keeps the rest |
| DashboardLayout.IndustryDisplay | src/components/DashboardLayout.tsx:39-48 | no industry line without a non-empty industry; the two hyphenated keys are spelled out; any other key is capitalised; a shown name never starts with a lower-case letter |
| DashboardLayout.ScorePanelFor | src/components/DashboardLayout.tsx:50-85 | the panel exists exactly when a score does, and then shows the score rounded to within half a point, the 70/40 colour, the fit-tier title ("Excellent Fit" exactly from 80), the 70/50 caption (the ready caption exactly from 70) and a bar as wide as the score |
| DashboardLayout.ChipsOr | src/components/DashboardLayout.tsx:94-174 | the placeholder appears exactly when the list is empty; otherwise the chips are the list |
| DashboardLayout.KeyMetrics | src/components/DashboardLayout.tsx:115-155 | Power BI good-when-high and volume bad-when-high on 7/4, compliance bad-when-high on 6/3; widths in [10,100] on the scale; compliance within its track exactly up to 8 |
| DashboardLayout.ComplianceColoursDiffer | src/components/DashboardLayout.tsx:152-153 | the sidebar and the landing dashboard colour the compliance count alike except at three, which is amber here and green there |
| DashboardLayout.ImplementationEstimate | src/components/DashboardLayout.tsx:181-185 | the sidebar's estimate is the landing dashboard's estimate |
| DashboardLayout.EstimateColour | src/components/DashboardLayout.tsx:179 | the estimate colour is good-when-high on 3/1 investments |
| DashboardLayout.EstimateColoursAgree | src/components/DashboardLayout.tsx:179-185 | the sidebar is green exactly when the landing dashboard is, and red exactly for the 9-12 month estimate |
| AssessmentForm.FieldsDetermineRecord | src/App.tsx:10-32 | two records that agree on every field are equal, so "nothing else changes" statements are complete |
| AssessmentForm.WithList | src/components/AssessmentForm.tsx:29-37 | setting a list field gives it the new value and changes no other field |
| AssessmentForm.WithSlider | src/components/AssessmentForm.tsx:41-46 | setting a slider gives it the new value and changes no other field |
| AssessmentForm.WithSelect | src/components/AssessmentForm.tsx:48-53 | setting a drop-down gives it the new value and changes no other field |
| AssessmentForm.Remove | src/components/AssessmentForm.tsx:31 | filtering drops every occurrence of the value and keeps every other element with its multiplicity |
| AssessmentForm.Toggle | src/components/AssessmentForm.tsx:26-39 | toggling flips the value's membership, keeps every other membership, appends an absent value, shortens the list when present and keeps it duplicate-free |
| AssessmentForm.RemoveAppendedAbsent | src/components/AssessmentForm.tsx:31-36 | removing a value just appended to a list that lacked it restores the list |
| AssessmentForm.ToggleTwice | src/components/AssessmentForm.tsx:26-39 | toggling twice restores every membership, and restores the list itself when the value was absent |
| AssessmentForm.Step | src/components/AssessmentForm.tsx:26-378 | the handlers as written, and the intended flow: an action off the current page changes nothing; Next and Previous move one step and keep the answers; each control changes only its own field; Complete hands on the answers unchanged |
| AssessmentForm.ProgressWidth | src/components/AssessmentForm.tsx:87 | the progress bar lies in [25,100] on steps 1-4 and is full exactly on step 4 |
| AssessmentForm.InitialStateValid | src/components/AssessmentForm.tsx:10-24 | the form starts on step 1 with a record it could hold: empty lists, empty drop-downs, every rating at 5 |
| AssessmentForm.StepKeepsInvariant | src/components/AssessmentForm.tsx:26-378 | an action from the controls keeps the step in 1-4 and the record well-formed: catalogue ticks without duplicates, offered drop-down values, ratings on the 1-10 scale, the timeline rating at 5 |
| AssessmentForm.RunKeepsInvariant | src/components/AssessmentForm.tsx:26-378 | any sequence of actions from the controls keeps that invariant, and a completed record is well-formed |
| AssessmentForm.CompletedAnswersValid | src/components/AssessmentForm.tsx:63-66 | every record submitted from the initial form is well-formed, with its timeline rating at 5 |
| AssessmentForm.CompletionNeedsNexts | src/components/AssessmentForm.tsx:354-378 | completing from step s takes at least 4 − s Next actions |
| AssessmentForm.QuickestCompletion | src/components/AssessmentForm.tsx:10-66 | Next three times and Complete submits the initial record |
| AssessmentForm.StepAsRendered | src/components/AssessmentForm.tsx:363-378 | with the Next and Complete buttons sharing one element, Next on step 3 submits the record as it stands; every other action is the handlers' step |
| AssessmentForm.RenderedStepStaysBeforeStepFour | src/components/AssessmentForm.tsx:55-57 | on steps 1-3 one rendered action either stays on steps 1-3 with budget 5, no compliance entries and sovereignty 5, or submits exactly the current record |
| AssessmentForm.RenderedRunSkipsStepFour | src/components/AssessmentForm.tsx:363-378 | along any rendered action sequence from before step 4, step 4 is never shown and any submitted record has budget 5, no compliance entries and sovereignty 5 |
| AssessmentForm.RenderedThirdNextSubmits | src/components/AssessmentForm.tsx:363-378 | three Next presses show step 4 under the handlers, but submit the initial record on the rendered page |
| AssessmentForm.RenderedQuestionnaireSkipsStepFour | src/components/AssessmentForm.tsx:363-378 | from the opening page, the rendered questionnaire never shows step 4 and submits the fourth page's initial answers |
| CrossChecks.FormDataTypesEarnNoBonus | src/utils/calculateScores.ts:47-50 | for answers from the form the data-type bonus is 0, since the scorer's bare names are not the form's labels |
| CrossChecks.FormInfrastructureEarnsNoGovernanceBonus | src/utils/calculateScores.ts:102-103 | for answers from the form the governance infrastructure bonus is 0 |
| CrossChecks.FormNeverScoresMicrosoft365 | src/App.tsx:47 | answers from the form never contain "Microsoft 365", so investment points stop at 40 and the governance investment bonus at 3 |
| CrossChecks.FormWarehouseTiers | src/utils/calculateScores.ts:38-39 | from the form, the warehouse earns 3 only as Azure Synapse; the value calculator's legacy tier is unreachable and its competitor tier is reached only by Snowflake |
| CrossChecks.FormBiToolTiers | src/utils/calculateScores.ts:65-66 | from the form, the BI tool earns 2 only as Excel |
| CrossChecks.FromCatalogueBounded | src/components/AssessmentForm.tsx:103-314 | a duplicate-free list drawn from a catalogue is no longer than the catalogue |
| CrossChecks.FormListsBounded | src/components/ModernDashboard.tsx:301 | every list from the form has at most eight entries, so both dashboards' compliance bars stay within their tracks |
| CrossChecks.Ticks | src/components/AssessmentForm.tsx:243-249 | one checkbox action per value, in order |
| CrossChecks.TicksAppend | src/components/AssessmentForm.tsx:26-39 | on the third step, ticking distinct products not yet ticked appends them in order |
| CrossChecks.EcosystemOverflowReachable | src/components/ModernDashboard.tsx:317 | the form can submit five products, and for that record the drawn ecosystem bar is 125% wide |

## Left out

- ValueCalculator.ThreeYearROI: a negative three-year cost, where the source divides and returns a finite ROI, is reported as a failure instead. `ThreeYearCostPositive` shows that such a cost cannot arise with clamped parameters.
- PDF and image export: html2canvas and jsPDF are foreign libraries, so `generatePDF` and `exportToPDF` are not modelled.
- Chart.js construction, options and colour schemes are foreign rendering. Only the numbers fed into the charts are modelled.
- React plumbing is not modelled: `useState`, `useEffect`, JSX layout, class strings, `window.print` and the sidebar's open/closed state. `setValueMetrics` is modelled as returning the record.
- Presentation formatting is not modelled: `toFixed(1)` on the radar values, `Intl.NumberFormat` currency strings, `toLocaleString` dates, `join(', ')` of product names, and the `'30'` alpha suffix on badge colours.
- IEEE-754 floating point: all arithmetic is exact `real`, so no claim is made about float-exact outputs. For example, 10/3.33 is computed exactly.
- The `try`/`catch` around `calculateScores` in the landing dashboard: the scorers are total, so the fallback branch is modelled on its own (`FallbackScores`) and never chosen.
- JavaScript prototype-key lookups in the multiplier object (such as the key `"constructor"`) are not modelled; the table is a finite map with a default row.
- The unused `sizeFactor` and `costFactor` in the value calculator have no effect, so they are not modelled.
- `parseInt` of the parameter inputs is a parameter: the model receives the parsed value, or `None` for `NaN`.
- DashboardLayout.UpperAscii: `toUpperCase` is modelled for ASCII letters only, because the industry keys are ASCII; Unicode case mapping is not modelled.
- The CSS `capitalize` class on the industry line is styling applied by the browser and is not modelled.
- The browser's range inputs are modelled by what they deliver (whole numbers 1-10), in `FromControls`, not by their rendering.
- Header, IndustrySelector (a static prose table), the entry point and build configuration have no scoring logic and are not modelled. `src/types/FormData.ts` duplicates the answer record and is not modelled separately.
- Which dashboard is mounted is not modelled: the application's page flow renders the results dashboard; the landing dashboard and sidebar layout are modelled as views over the same record.
- Comparison.CompetitorScores: the strength and weakness texts are modelled as constants, and only their count is stated.

## Findings

| source | as written | input that shows it | evidently intended | confidence | as-written member | corrected member |
|---|---|---|---|---|---|---|
| src/components/ModernDashboard.tsx:223-224 | the technical-fit badge is coloured with `getComplexityColor(count, true)` on the 7/4 thresholds, while its word uses 3/1 | three Microsoft investments: the word is "Strong", the badge is red | the colour follows the word's 3/1 thresholds (green for Strong, amber for Moderate, red for Limited) | medium, not executed | ModernDashboard.EcosystemBadgeColourAsWritten, ModernDashboard.EcosystemBadgeDisagrees, ModernDashboard.ComplexityBadges | ModernDashboard.EcosystemBadgeColour, ModernDashboard.IntendedComplexityBadges |
| src/components/ModernDashboard.tsx:317 | the ecosystem bar's width is count/4·100%, while the form offers eight products | five products ticked on the third step (CrossChecks.EcosystemOverflowReachable): width 125% | the bar is capped at its track, full from four products | medium, not executed | ModernDashboard.EcosystemBarWidthAsWritten, ModernDashboard.EcosystemBarOverflows, ModernDashboard.MigrationBars | ModernDashboard.EcosystemBarWidth, ModernDashboard.IntendedMigrationBars |
| src/components/AssessmentForm.tsx:363-378 | the Next and Complete buttons are two unkeyed alternatives in one child slot, so React keeps one button element and only switches its `type` attribute; with `createRoot` the `setStep(4)` re-render runs in the microtask after the click listener, before the browser's activation behaviour, which then sees a submit button | Next on step 3 (AssessmentForm.RenderedThirdNextSubmits): the form submits, step 4 is never shown, and the record has budget 5, no compliance entries and sovereignty 5 | Next only moves to step 4, and only Complete submits (distinct `key`s on the two buttons) | medium, not executed | AssessmentForm.StepAsRendered, AssessmentForm.RenderedRunSkipsStepFour, AssessmentForm.RenderedThirdNextSubmits | AssessmentForm.Step, AssessmentForm.QuickestCompletion |

=== FILE: app.dfy ===
/**
 * App.tsx: the composite suitability score computed when the questionnaire
 * completes, and the page flow between the four views.
 */
module App {
  import opened Numeric
  import opened Assessment
  import opened Wrappers

  // ------------------------------------------------------ composite score

  /** Points for the investments the composite rewards. */
  function InvestmentPoints(mi: seq<string>): (r: real)
    ensures 0.0 <= r <= 45.0
    ensures r == 0.0 <==> "Azure" !in mi && "Power BI" !in mi && "Dynamics 365" !in mi && "Microsoft 365" !in mi
    ensures r == 45.0 <==> "Azure" in mi && "Power BI" in mi && "Dynamics 365" in mi && "Microsoft 365" in mi
  {
    15.0 * Indicator("Azure" in mi) + 15.0 * Indicator("Power BI" in mi)
      + 10.0 * Indicator("Dynamics 365" in mi) + 5.0 * Indicator("Microsoft 365" in mi)
  }

  /** Points for data volume: +15 from 7, +10 from 4, +5 below. */
  function VolumeTier(v: int): (r: real)
    ensures r in {5.0, 10.0, 15.0}
  {
    if v >= 7 then 15.0 else if v >= 4 then 10.0 else 5.0
  }

  /** The tier boundaries are strict: 7 is the first +15 value, 4 the first +10 value. */
  lemma VolumeTierBoundaries(v: int)
    ensures VolumeTier(v) == 15.0 <==> v >= 7
    ensures VolumeTier(v) == 10.0 <==> 4 <= v <= 6
    ensures VolumeTier(v) == 5.0 <==> v <= 3
  {
  }

  /** The score before normalisation. */
  function FabricRaw(d: AssessmentData): (r: real)
    ensures RatingsInScale(d) ==> 8.5 <= r <= 108.5
  {
    InvestmentPoints(d.microsoftInvestments)
      + d.powerBiUsage as real * 2.0
      + d.realTimeNeeds as real * 1.5
      + VolumeTier(d.dataVolume)
      + (10 - d.budgetConstraint) as real * 1.5
  }

  /** The composite score `handleAssessmentComplete` stores. */
  function FabricScore(d: AssessmentData): (r: real)
    ensures 0.0 <= r <= 100.0
  {
    Clamp(0.0, 100.0, FabricRaw(d))
  }

  /**
   * For ratings on their scale the raw sum lies in [8.5, 108.5], so only the
   * upper bound of the normalisation can take effect.
   */
  lemma RawBounds(d: AssessmentData)
    requires RatingsInScale(d)
    ensures 8.5 <= FabricRaw(d) <= 108.5
    ensures FabricScore(d) == Min(100.0, FabricRaw(d))
  {
  }

  lemma FabricMonotoneInUsage(d: AssessmentData, u: int)
    requires d.powerBiUsage <= u
    ensures FabricScore(d) <= FabricScore(d.(powerBiUsage := u))
  {
    ClampMonotone(0.0, 100.0, FabricRaw(d), FabricRaw(d.(powerBiUsage := u)));
  }

  lemma FabricMonotoneInRealTime(d: AssessmentData, t: int)
    requires d.realTimeNeeds <= t
    ensures FabricScore(d) <= FabricScore(d.(realTimeNeeds := t))
  {
    ClampMonotone(0.0, 100.0, FabricRaw(d), FabricRaw(d.(realTimeNeeds := t)));
  }

  lemma FabricMonotoneInVolume(d: AssessmentData, v: int)
    requires d.dataVolume <= v
    ensures FabricScore(d) <= FabricScore(d.(dataVolume := v))
  {
    assert VolumeTier(d.dataVolume) <= VolumeTier(v);
    ClampMonotone(0.0, 100.0, FabricRaw(d), FabricRaw(d.(dataVolume := v)));
  }

  /** A looser budget (higher value) never raises the composite. */
  lemma FabricAntitoneInBudget(d: AssessmentData, b: int)
    requires d.budgetConstraint <= b
    ensures FabricScore(d.(budgetConstraint := b)) <= FabricScore(d)
  {
    ClampMonotone(0.0, 100.0, FabricRaw(d.(budgetConstraint := b)), FabricRaw(d));
  }

  /** Adding an investment never lowers the composite. */
  lemma AddingInvestmentNeverLowers(d: AssessmentData, x: string)
    ensures FabricScore(d) <= FabricScore(d.(microsoftInvestments := d.microsoftInvestments + [x]))
  {
    var e := d.(microsoftInvestments := d.microsoftInvestments + [x]);
    forall k | k in d.microsoftInvestments
      ensures k in e.microsoftInvestments
    {
      assert k in d.microsoftInvestments + [x];
    }
    ClampMonotone(0.0, 100.0, FabricRaw(d), FabricRaw(e));
  }

  /** The investment strings the composite looks for; no other string matters. */
  const ScoredInvestments: seq<string> := ["Azure", "Power BI", "Dynamics 365", "Microsoft 365"]

  lemma OnlyScoredInvestmentsCount(d: AssessmentData, mi: seq<string>)
    requires forall k :: k in ScoredInvestments ==> (k in mi <==> k in d.microsoftInvestments)
    ensures FabricScore(d.(microsoftInvestments := mi)) == FabricScore(d)
  {
    assert "Azure" in ScoredInvestments;
    assert "Power BI" in ScoredInvestments;
    assert "Dynamics 365" in ScoredInvestments;
    assert "Microsoft 365" in ScoredInvestments;
    assert InvestmentPoints(mi) == InvestmentPoints(d.microsoftInvestments);
  }

  /** Worked example: Azure and Power BI, usage 8, real time 5, volume 8, budget 3. */
  lemma ScenarioA(d: AssessmentData)
    requires d.microsoftInvestments == ["Azure", "Power BI"]
    requires d.powerBiUsage == 8 && d.realTimeNeeds == 5 && d.dataVolume == 8 && d.budgetConstraint == 3
    ensures FabricScore(d) == 79.0
  {
    assert "Azure" in d.microsoftInvestments;
    assert "Power BI" in d.microsoftInvestments;
    assert "Dynamics 365" !in d.microsoftInvestments;
    assert "Microsoft 365" !in d.microsoftInvestments;
  }

  /** Worked example: no investments, usage 1, real time 1, volume 1, budget 10. */
  lemma ScenarioB(d: AssessmentData)
    requires d.microsoftInvestments == []
    requires d.powerBiUsage == 1 && d.realTimeNeeds == 1 && d.dataVolume == 1 && d.budgetConstraint == 10
    ensures FabricScore(d) == 8.5
  {
  }

  // ------------------------------------------------------------ page flow

  datatype Page = AssessmentPage | ResultsPage | ComparisonPage | ReportPage

  /** The state App keeps: current page, stored answers and stored score. */
  datatype AppState = AppState(page: Page, data: Option<AssessmentData>, fabricScore: real)

  /** What the user can do: finish the questionnaire, continue, or restart. */
  datatype AppEvent = Complete(answers: AssessmentData) | Continue | Restart

  const InitialApp: AppState := AppState(AssessmentPage, None, 0.0)

  /** Whether the view that raises `e` is on screen in state `s`. */
  predicate Shown(s: AppState, e: AppEvent) {
    || (e.Complete? && s.page == AssessmentPage)
    || (e.Continue? && s.page in {ResultsPage, ComparisonPage} && s.data.Some?)
    || (e.Restart? && s.page == ReportPage && s.data.Some?)
  }

  /**
   * A view is shown only when its page is current (and, past the
   * questionnaire, answers are stored); an event from a view that is not
   * shown does nothing.
   */
  function Step(s: AppState, e: AppEvent): (t: AppState)
    ensures e.Complete? && s.page == AssessmentPage ==>
      t == AppState(ResultsPage, Some(e.answers), FabricScore(e.answers))
    ensures e.Continue? && s.page == ResultsPage && s.data.Some? ==> t == s.(page := ComparisonPage)
    ensures e.Continue? && s.page == ComparisonPage && s.data.Some? ==> t == s.(page := ReportPage)
    ensures e.Restart? && s.page == ReportPage && s.data.Some? ==> t == s.(page := AssessmentPage)
    ensures t.data.None? ==> t == s
    ensures !Shown(s, e) ==> t == s
  {
    match e
    case Complete(d) =>
      if s.page == AssessmentPage then AppState(ResultsPage, Some(d), FabricScore(d)) else s
    case Continue =>
      if s.page == ResultsPage && s.data.Some? then s.(page := ComparisonPage)
      else if s.page == ComparisonPage && s.data.Some? then s.(page := ReportPage)
      else s
    case Restart =>
      if s.page == ReportPage && s.data.Some? then s.(page := AssessmentPage) else s
  }

  /** Past the questionnaire, answers are stored; the stored score is a composite in range. */
  predicate AppInvariant(s: AppState) {
    && (s.page != AssessmentPage ==> s.data.Some?)
    && 0.0 <= s.fabricScore <= 100.0
    && (s.data.Some? ==> s.fabricScore == FabricScore(s.data.value))
  }

  function Run(s: AppState, es: seq<AppEvent>): AppState
    decreases |es|
  {
    if |es| == 0 then s else Run(Step(s, es[0]), es[1..])
  }

  lemma {:induction false} RunKeepsInvariant(s: AppState, es: seq<AppEvent>)
    requires AppInvariant(s)
    ensures AppInvariant(Run(s, es))
    decreases |es|
  {
    if |es| > 0 {
      RunKeepsInvariant(Step(s, es[0]), es[1..]);
    }
  }

  /** The round trip questionnaire, results, comparison, report, questionnaire. */
  lemma FullCycle(d: AssessmentData)
    ensures Run(InitialApp, [Complete(d), Continue, Continue, Restart])
      == AppState(AssessmentPage, Some(d), FabricScore(d))
  {
    var s1 := Step(InitialApp, Complete(d));
    var s2 := Step(s1, Continue);
    var s3 := Step(s2, Continue);
    var s4 := Step(s3, Restart);
    assert [Complete(d), Continue, Continue, Restart][1..] == [Continue, Continue, Restart];
    assert [Continue, Continue, Restart][1..] == [Continue, Restart];
    assert [Continue, Restart][1..] == [Restart];
    assert [Restart][1..] == [];
  }
}

=== FILE: assessment.dfy ===
/**
 * The questionnaire answer record every scorer reads (the `AssessmentData`
 * interface of App.tsx). The 1-10 ratings are JavaScript numbers; the form
 * only ever stores integers in them, so they are `int` here. List fields are
 * JavaScript arrays: order and duplicates are kept.
 */
module Assessment {

  datatype AssessmentData = AssessmentData(
    currentInfrastructure: seq<string>,
    dataWarehouseSolution: string,
    businessIntelligenceTool: string,
    dataTypes: seq<string>,
    dataVolume: int,
    realTimeNeeds: int,
    microsoftInvestments: seq<string>,
    powerBiUsage: int,
    budgetConstraint: int,
    timeToImplementation: int,
    complianceRequirements: seq<string>,
    dataSovereigntyNeeds: int
  )

  predicate InScale(v: int) {
    1 <= v <= 10
  }

  /** Every 1-10 rating of the record lies on its scale. */
  predicate RatingsInScale(d: AssessmentData) {
    && InScale(d.dataVolume)
    && InScale(d.realTimeNeeds)
    && InScale(d.powerBiUsage)
    && InScale(d.budgetConstraint)
    && InScale(d.timeToImplementation)
    && InScale(d.dataSovereigntyNeeds)
  }

  /** `list.length` as a real, for the rules that do arithmetic on counts. */
  function Count(xs: seq<string>): real {
    |xs| as real
  }
}

=== FILE: assessment_form.dfy ===
/**
 * The four-step questionnaire (AssessmentForm.tsx): the answer record it
 * starts from, the checkbox catalogues and drop-down options it offers, the
 * checkbox toggle, the slider and drop-down setters, the Previous / Next /
 * Complete navigation, and the record it hands on when completed.
 *
 * The browser's controls are modelled by what they can deliver: a checkbox
 * only ever toggles one of its catalogue's entries, a range input only
 * delivers whole numbers from 1 to 10, a drop-down only one of its options.
 */
module AssessmentForm {
  import opened Assessment

  // ------------------------------------------------------------ catalogues

  const InfrastructureOptions: seq<string> := [
    "SQL Server", "Oracle", "Azure", "AWS", "Google Cloud",
    "On-premises servers", "Hadoop/Spark", "MongoDB"]

  const DataTypeOptions: seq<string> := [
    "Structured (relational databases)", "Semi-structured (JSON, XML)",
    "Unstructured (documents, emails)", "IoT/sensor data", "Images/video",
    "Audio", "Social media data", "Log files"]

  const InvestmentOptions: seq<string> := [
    "Azure", "Power BI", "Office/Microsoft 365", "Dynamics 365", "SQL Server",
    "Azure Synapse Analytics", "Azure Data Factory", "SharePoint"]

  const ComplianceOptions: seq<string> := [
    "GDPR", "HIPAA", "CCPA", "SOX", "PCI DSS", "ISO 27001", "FedRAMP",
    "Industry-specific"]

  /** Drop-down values; the empty one is "Select an option". */
  const WarehouseOptions: seq<string> := [
    "", "Azure Synapse", "SQL Server", "Snowflake", "AWS Redshift",
    "Google BigQuery", "Oracle", "None"]

  const BiToolOptions: seq<string> := [
    "", "Power BI", "Tableau", "Qlik", "Looker", "Excel",
    "SAP BusinessObjects", "None"]

  /** The record the form starts from: nothing chosen, every rating at 5. */
  const InitialForm: AssessmentData := AssessmentData(
    [], "", "", [], 5, 5, [], 5, 5, 5, [], 5)

  // ------------------------------------------------------------- the fields

  datatype ListField = Infrastructure | DataTypes | Investments | Compliance
  datatype SliderField = Volume | RealTime | PowerBiUse | Budget | Sovereignty
  datatype SelectField = Warehouse | BiTool

  /**
   * Every field of the record. The time-to-implementation rating has no
   * control on any step.
   */
  datatype Field =
    | ListF(list: ListField)
    | SliderF(slider: SliderField)
    | SelectF(select: SelectField)
    | TimelineF

  datatype FieldValue = Items(items: seq<string>) | Rating(rating: int) | Choice(choice: string)

  function ListOf(d: AssessmentData, f: ListField): seq<string> {
    match f
    case Infrastructure => d.currentInfrastructure
    case DataTypes => d.dataTypes
    case Investments => d.microsoftInvestments
    case Compliance => d.complianceRequirements
  }

  function SliderOf(d: AssessmentData, f: SliderField): int {
    match f
    case Volume => d.dataVolume
    case RealTime => d.realTimeNeeds
    case PowerBiUse => d.powerBiUsage
    case Budget => d.budgetConstraint
    case Sovereignty => d.dataSovereigntyNeeds
  }

  function SelectOf(d: AssessmentData, f: SelectField): string {
    match f
    case Warehouse => d.dataWarehouseSolution
    case BiTool => d.businessIntelligenceTool
  }

  function Get(d: AssessmentData, f: Field): FieldValue {
    match f
    case ListF(l) => Items(ListOf(d, l))
    case SliderF(s) => Rating(SliderOf(d, s))
    case SelectF(c) => Choice(SelectOf(d, c))
    case TimelineF => Rating(d.timeToImplementation)
  }

  /** The fields cover the record: two records that agree on every field are equal. */
  lemma FieldsDetermineRecord(d: AssessmentData, e: AssessmentData)
    requires forall f :: Get(d, f) == Get(e, f)
    ensures d == e
  {
    assert Get(d, ListF(Infrastructure)) == Get(e, ListF(Infrastructure));
    assert Get(d, ListF(DataTypes)) == Get(e, ListF(DataTypes));
    assert Get(d, ListF(Investments)) == Get(e, ListF(Investments));
    assert Get(d, ListF(Compliance)) == Get(e, ListF(Compliance));
    assert Get(d, SliderF(Volume)) == Get(e, SliderF(Volume));
    assert Get(d, SliderF(RealTime)) == Get(e, SliderF(RealTime));
    assert Get(d, SliderF(PowerBiUse)) == Get(e, SliderF(PowerBiUse));
    assert Get(d, SliderF(Budget)) == Get(e, SliderF(Budget));
    assert Get(d, SliderF(Sovereignty)) == Get(e, SliderF(Sovereignty));
    assert Get(d, SelectF(Warehouse)) == Get(e, SelectF(Warehouse));
    assert Get(d, SelectF(BiTool)) == Get(e, SelectF(BiTool));
    assert Get(d, TimelineF) == Get(e, TimelineF);
  }

  /** `{...formData, [field]: xs}` for a list field. */
  function WithList(d: AssessmentData, f: ListField, xs: seq<string>): (e: AssessmentData)
    ensures ListOf(e, f) == xs
    ensures forall g :: g != ListF(f) ==> Get(e, g) == Get(d, g)
  {
    match f
    case Infrastructure => d.(currentInfrastructure := xs)
    case DataTypes => d.(dataTypes := xs)
    case Investments => d.(microsoftInvestments := xs)
    case Compliance => d.(complianceRequirements := xs)
  }

  /** `handleSliderChange`: the rating stored as delivered. */
  function WithSlider(d: AssessmentData, f: SliderField, v: int): (e: AssessmentData)
    ensures SliderOf(e, f) == v
    ensures forall g :: g != SliderF(f) ==> Get(e, g) == Get(d, g)
  {
    match f
    case Volume => d.(dataVolume := v)
    case RealTime => d.(realTimeNeeds := v)
    case PowerBiUse => d.(powerBiUsage := v)
    case Budget => d.(budgetConstraint := v)
    case Sovereignty => d.(dataSovereigntyNeeds := v)
  }

  /** `handleInputChange`: the option stored as chosen. */
  function WithSelect(d: AssessmentData, f: SelectField, v: string): (e: AssessmentData)
    ensures SelectOf(e, f) == v
    ensures forall g :: g != SelectF(f) ==> Get(e, g) == Get(d, g)
  {
    match f
    case Warehouse => d.(dataWarehouseSolution := v)
    case BiTool => d.(businessIntelligenceTool := v)
  }

  function CatalogueOf(f: ListField): seq<string> {
    match f
    case Infrastructure => InfrastructureOptions
    case DataTypes => DataTypeOptions
    case Investments => InvestmentOptions
    case Compliance => ComplianceOptions
  }

  function OptionsOf(f: SelectField): seq<string> {
    match f
    case Warehouse => WarehouseOptions
    case BiTool => BiToolOptions
  }

  // ------------------------------------------------------- checkbox toggle

  predicate NoDup(xs: seq<string>) {
    forall i, j :: 0 <= i < j < |xs| ==> xs[i] != xs[j]
  }

  lemma NoDupCons(a: string, xs: seq<string>)
    ensures a !in xs && NoDup(xs) ==> NoDup([a] + xs)
  {
    if a !in xs && NoDup(xs) {
      forall i, j | 0 <= i < j < |[a] + xs|
        ensures ([a] + xs)[i] != ([a] + xs)[j]
      {
        if i == 0 {
          assert ([a] + xs)[j] == xs[j - 1];
        }
      }
    }
  }

  lemma NoDupSnoc(xs: seq<string>, a: string)
    ensures a !in xs && NoDup(xs) ==> NoDup(xs + [a])
  {
    if a !in xs && NoDup(xs) {
      forall i, j | 0 <= i < j < |xs + [a]| ensures (xs + [a])[i] != (xs + [a])[j] {
        if j == |xs| {
          assert (xs + [a])[i] == xs[i];
        }
      }
    }
  }

  lemma NoDupTail(xs: seq<string>)
    requires |xs| > 0
    ensures NoDup(xs) ==> NoDup(xs[1..]) && xs[0] !in xs[1..]
  {
    if NoDup(xs) {
      forall i, j | 0 <= i < j < |xs[1..]| ensures xs[1..][i] != xs[1..][j] {
        assert xs[1..][i] == xs[i + 1] && xs[1..][j] == xs[j + 1];
      }
      forall k | 0 <= k < |xs[1..]| ensures xs[1..][k] != xs[0] {
        assert xs[1..][k] == xs[k + 1];
      }
    }
  }

  /** `array.filter(item => item !== value)`. */
  function Remove(xs: seq<string>, v: string): (r: seq<string>)
    ensures forall x :: x in r <==> x in xs && x != v
    ensures multiset(r) == multiset(xs)[v := 0]
    ensures v !in xs ==> r == xs
    ensures |r| <= |xs| && (v in xs ==> |r| < |xs|)
    ensures NoDup(xs) ==> NoDup(r)
    decreases |xs|
  {
    if |xs| == 0 then []
    else
      assert xs == [xs[0]] + xs[1..];
      var rest := Remove(xs[1..], v);
      NoDupTail(xs);
      NoDupCons(xs[0], rest);
      if xs[0] == v then rest else [xs[0]] + rest
  }

  /** `handleCheckboxChange` on one list: drop the value if present, else append it. */
  function Toggle(xs: seq<string>, v: string): (r: seq<string>)
    ensures v in r <==> v !in xs
    ensures forall x :: x != v ==> (x in r <==> x in xs)
    ensures v !in xs ==> r == xs + [v]
    ensures v in xs ==> |r| < |xs|
    ensures NoDup(xs) ==> NoDup(r)
  {
    if v in xs then
      Remove(xs, v)
    else
      NoDupSnoc(xs, v);
      xs + [v]
  }

  lemma {:induction false} RemoveAppendedAbsent(xs: seq<string>, v: string)
    requires v !in xs
    ensures Remove(xs + [v], v) == xs
    decreases |xs|
  {
    if |xs| == 0 {
      assert xs + [v] == [v];
    } else {
      assert (xs + [v])[1..] == xs[1..] + [v];
      RemoveAppendedAbsent(xs[1..], v);
      assert xs == [xs[0]] + xs[1..];
    }
  }

  /**
   * Ticking a box twice: every box shows its old state again, and a value
   * that was not ticked leaves the list exactly as it was.
   */
  lemma ToggleTwice(xs: seq<string>, v: string)
    ensures forall x :: x in Toggle(Toggle(xs, v), v) <==> x in xs
    ensures v !in xs ==> Toggle(Toggle(xs, v), v) == xs
  {
    if v !in xs {
      RemoveAppendedAbsent(xs, v);
    }
  }

  // ------------------------------------------------------------ navigation

  /** The step that shows a field's control; the timeline rating has none. */
  function StepOf(f: Field): int {
    match f
    case ListF(Infrastructure) => 1
    case SelectF(_) => 1
    case ListF(DataTypes) => 2
    case SliderF(Volume) => 2
    case SliderF(RealTime) => 2
    case ListF(Investments) => 3
    case SliderF(PowerBiUse) => 3
    case ListF(Compliance) => 4
    case SliderF(Budget) => 4
    case SliderF(Sovereignty) => 4
    case TimelineF => 0
  }

  datatype FormState = FormState(step: int, data: AssessmentData)

  const InitialState: FormState := FormState(1, InitialForm)

  /** One user action on the form. */
  datatype FormEvent =
    | Check(list: ListField, option: string)
    | Slide(slider: SliderField, value: int)
    | Choose(select: SelectField, option: string)
    | Next
    | Previous
    | Submit

  /** Whether the control for an event is on the current step's page. */
  predicate Offered(s: FormState, e: FormEvent) {
    match e
    case Check(f, _) => StepOf(ListF(f)) == s.step
    case Slide(f, _) => StepOf(SliderF(f)) == s.step
    case Choose(f, _) => StepOf(SelectF(f)) == s.step
    case Next => s.step < 4
    case Previous => s.step > 1
    case Submit => s.step == 4
  }

  /** What the form's controls can deliver. */
  predicate FromControls(e: FormEvent) {
    match e
    case Check(f, v) => v in CatalogueOf(f)
    case Slide(_, v) => InScale(v)
    case Choose(f, v) => v in OptionsOf(f)
    case _ => true
  }

  /** The form is either still being edited or has been completed with a record. */
  datatype Outcome = Editing(state: FormState) | Completed(answers: AssessmentData)

  /**
   * One action. An action whose control is not on the current page changes
   * nothing; Complete hands the record on unchanged.
   */
  function Step(s: FormState, e: FormEvent): (o: Outcome)
    ensures !Offered(s, e) ==> o == Editing(s)
    ensures o.Completed? <==> Offered(s, e) && e.Submit?
    ensures o.Completed? ==> o.answers == s.data
    ensures o.Editing? && o.state.step != s.step ==> o.state.data == s.data
    ensures Offered(s, e) && e.Next? ==> o.Editing? && o.state.step == s.step + 1
    ensures Offered(s, e) && e.Previous? ==> o.Editing? && o.state.step == s.step - 1
    ensures Offered(s, e) && (e.Check? || e.Slide? || e.Choose?) ==>
      o.Editing? && o.state.step == s.step
    ensures Offered(s, e) && e.Check? ==>
      (e.option in ListOf(o.state.data, e.list) <==> e.option !in ListOf(s.data, e.list)) &&
      forall g :: g != ListF(e.list) ==> Get(o.state.data, g) == Get(s.data, g)
    ensures Offered(s, e) && e.Slide? ==>
      SliderOf(o.state.data, e.slider) == e.value &&
      forall g :: g != SliderF(e.slider) ==> Get(o.state.data, g) == Get(s.data, g)
    ensures Offered(s, e) && e.Choose? ==>
      SelectOf(o.state.data, e.select) == e.option &&
      forall g :: g != SelectF(e.select) ==> Get(o.state.data, g) == Get(s.data, g)
  {
    if !Offered(s, e) then Editing(s)
    else
      match e
      case Check(f, v) => Editing(s.(data := WithList(s.data, f, Toggle(ListOf(s.data, f), v))))
      case Slide(f, v) => Editing(s.(data := WithSlider(s.data, f, v)))
      case Choose(f, v) => Editing(s.(data := WithSelect(s.data, f, v)))
      case Next => Editing(s.(step := s.step + 1))
      case Previous => Editing(s.(step := s.step - 1))
      case Submit => Completed(s.data)
  }

  /** A sequence of actions, stopping at completion. */
  function Run(s: FormState, es: seq<FormEvent>): Outcome
    decreases |es|
  {
    if |es| == 0 then Editing(s)
    else
      match Step(s, es[0])
      case Completed(d) => Completed(d)
      case Editing(t) => Run(t, es[1..])
  }

  /** Width of the progress bar, in percent. */
  function ProgressWidth(step: int): (w: real)
    ensures 1 <= step <= 4 ==> 25.0 <= w <= 100.0
    ensures w == 100.0 <==> step == 4
  {
    step as real / 4.0 * 100.0
  }

  // ------------------------------------------------------------ invariants

  predicate FromCatalogue(xs: seq<string>, catalogue: seq<string>) {
    NoDup(xs) && forall x :: x in xs ==> x in catalogue
  }

  /**
   * A record the form can hold: no duplicate ticks, every tick from its
   * catalogue, every drop-down value one of its options, every rating on
   * the 1-10 scale and the timeline rating at its initial 5.
   */
  predicate FormAnswers(d: AssessmentData) {
    && (forall f :: FromCatalogue(ListOf(d, f), CatalogueOf(f)))
    && (forall f :: SelectOf(d, f) in OptionsOf(f))
    && RatingsInScale(d)
    && d.timeToImplementation == 5
  }

  predicate FormInvariant(s: FormState) {
    1 <= s.step <= 4 && FormAnswers(s.data)
  }

  lemma InitialStateValid()
    ensures FormInvariant(InitialState)
  {
    forall f: SelectField ensures SelectOf(InitialForm, f) in OptionsOf(f) {
      assert OptionsOf(f)[0] == "";
    }
  }

  lemma StepKeepsInvariant(s: FormState, e: FormEvent)
    requires FormInvariant(s) && FromControls(e)
    ensures Step(s, e).Editing? ==> FormInvariant(Step(s, e).state)
    ensures Step(s, e).Completed? ==> FormAnswers(Step(s, e).answers)
  {
    if Offered(s, e) {
      var d' := if Step(s, e).Editing? then Step(s, e).state.data else s.data;
      match e
      case Check(f, v) =>
        forall g ensures FromCatalogue(ListOf(d', g), CatalogueOf(g)) {
          if g != f {
            assert Get(d', ListF(g)) == Get(s.data, ListF(g));
          }
        }
        forall g ensures SelectOf(d', g) in OptionsOf(g) {
          assert Get(d', SelectF(g)) == Get(s.data, SelectF(g));
        }
        assert Get(d', SliderF(Volume)) == Get(s.data, SliderF(Volume));
        assert Get(d', SliderF(RealTime)) == Get(s.data, SliderF(RealTime));
        assert Get(d', SliderF(PowerBiUse)) == Get(s.data, SliderF(PowerBiUse));
        assert Get(d', SliderF(Budget)) == Get(s.data, SliderF(Budget));
        assert Get(d', SliderF(Sovereignty)) == Get(s.data, SliderF(Sovereignty));
        assert Get(d', TimelineF) == Get(s.data, TimelineF);
      case Slide(f, v) =>
        forall g ensures FromCatalogue(ListOf(d', g), CatalogueOf(g)) {
          assert Get(d', ListF(g)) == Get(s.data, ListF(g));
        }
        forall g ensures SelectOf(d', g) in OptionsOf(g) {
          assert Get(d', SelectF(g)) == Get(s.data, SelectF(g));
        }
        forall g | g != f ensures SliderOf(d', g) == SliderOf(s.data, g) {
          assert Get(d', SliderF(g)) == Get(s.data, SliderF(g));
        }
        assert Get(d', TimelineF) == Get(s.data, TimelineF);
      case Choose(f, v) =>
        forall g ensures FromCatalogue(ListOf(d', g), CatalogueOf(g)) {
          assert Get(d', ListF(g)) == Get(s.data, ListF(g));
        }
        forall g | g != f ensures SelectOf(d', g) == SelectOf(s.data, g) {
          assert Get(d', SelectF(g)) == Get(s.data, SelectF(g));
        }
        assert Get(d', SliderF(Volume)) == Get(s.data, SliderF(Volume));
        assert Get(d', SliderF(RealTime)) == Get(s.data, SliderF(RealTime));
        assert Get(d', SliderF(PowerBiUse)) == Get(s.data, SliderF(PowerBiUse));
        assert Get(d', SliderF(Budget)) == Get(s.data, SliderF(Budget));
        assert Get(d', SliderF(Sovereignty)) == Get(s.data, SliderF(Sovereignty));
        assert Get(d', TimelineF) == Get(s.data, TimelineF);
      case _ =>
    }
  }

  /**
   * Whatever the user does with the form's controls, the form stays on one
   * of its four steps with a record it can hold, and a completed record is
   * one of those.
   */
  lemma {:induction false} RunKeepsInvariant(s: FormState, es: seq<FormEvent>)
    requires FormInvariant(s)
    requires forall i :: 0 <= i < |es| ==> FromControls(es[i])
    ensures Run(s, es).Editing? ==> FormInvariant(Run(s, es).state)
    ensures Run(s, es).Completed? ==> FormAnswers(Run(s, es).answers)
    decreases |es|
  {
    if |es| > 0 {
      StepKeepsInvariant(s, es[0]);
      if Step(s, es[0]).Editing? {
        RunKeepsInvariant(Step(s, es[0]).state, es[1..]);
      }
    }
  }

  /** Every record the questionnaire can complete with is one the form can hold. */
  lemma CompletedAnswersValid(es: seq<FormEvent>)
    requires forall i :: 0 <= i < |es| ==> FromControls(es[i])
    requires Run(InitialState, es).Completed?
    ensures FormAnswers(Run(InitialState, es).answers)
  {
    InitialStateValid();
    RunKeepsInvariant(InitialState, es);
  }

  function CountNext(es: seq<FormEvent>): nat {
    if |es| == 0 then 0 else (if es[0].Next? then 1 else 0) + CountNext(es[1..])
  }

  /** Completing takes at least as many Next presses as steps remain. */
  lemma {:induction false} CompletionNeedsNexts(s: FormState, es: seq<FormEvent>)
    requires s.step <= 4
    requires Run(s, es).Completed?
    ensures CountNext(es) >= 4 - s.step
    decreases |es|
  {
    if |es| > 0 && Step(s, es[0]).Editing? {
      CompletionNeedsNexts(Step(s, es[0]).state, es[1..]);
    }
  }

  /** Three Next presses and Complete hand the initial record on unchanged. */
  lemma QuickestCompletion()
    ensures Run(InitialState, [Next, Next, Next, Submit]) == Completed(InitialForm)
  {
  }

  // ------------------------------------------- the shared button element

  /**
   * A step as the page behaves when React reuses one button element for
   * Next and Complete. The click that moves step 3 to step 4 turns that
   * element into a submit button before the browser's activation behaviour
   * runs, so the same click also submits the record. Every other action is
   * the handler's own step.
   */
  function StepAsRendered(s: FormState, e: FormEvent): (o: Outcome)
    ensures s.step == 3 && e.Next? ==> o == Completed(s.data)
    ensures !(s.step == 3 && e.Next?) ==> o == Step(s, e)
  {
    if s.step == 3 && e.Next? then Completed(s.data) else Step(s, e)
  }

  function RunAsRendered(s: FormState, es: seq<FormEvent>): Outcome
    decreases |es|
  {
    if |es| == 0 then Editing(s)
    else
      match StepAsRendered(s, es[0])
      case Completed(d) => Completed(d)
      case Editing(t) => RunAsRendered(t, es[1..])
  }

  /** On steps 1 to 3 the fourth page's answers are still the initial ones. */
  predicate BeforeStepFour(s: FormState) {
    && 1 <= s.step <= 3
    && s.data.budgetConstraint == 5
    && s.data.complianceRequirements == []
    && s.data.dataSovereigntyNeeds == 5
  }

  lemma RenderedStepStaysBeforeStepFour(s: FormState, e: FormEvent)
    requires BeforeStepFour(s)
    ensures StepAsRendered(s, e).Editing? ==> BeforeStepFour(StepAsRendered(s, e).state)
    ensures StepAsRendered(s, e).Completed? ==> StepAsRendered(s, e).answers == s.data
  {
    var o := StepAsRendered(s, e);
    if o.Editing? && Offered(s, e) && (e.Check? || e.Slide? || e.Choose?) {
      var d' := o.state.data;
      assert Get(d', ListF(Compliance)) == Get(s.data, ListF(Compliance));
      assert Get(d', SliderF(Budget)) == Get(s.data, SliderF(Budget));
      assert Get(d', SliderF(Sovereignty)) == Get(s.data, SliderF(Sovereignty));
    }
  }

  /**
   * With the shared button, step 4 is never shown, and every completed
   * record carries the initial budget, compliance and sovereignty answers.
   */
  lemma {:induction false} RenderedRunSkipsStepFour(s: FormState, es: seq<FormEvent>)
    requires BeforeStepFour(s)
    ensures RunAsRendered(s, es).Editing? ==> RunAsRendered(s, es).state.step <= 3
    ensures RunAsRendered(s, es).Completed? ==>
      var d := RunAsRendered(s, es).answers;
      d.budgetConstraint == 5 && d.complianceRequirements == [] && d.dataSovereigntyNeeds == 5
    decreases |es|
  {
    if |es| > 0 {
      RenderedStepStaysBeforeStepFour(s, es[0]);
      if StepAsRendered(s, es[0]).Editing? {
        RenderedRunSkipsStepFour(StepAsRendered(s, es[0]).state, es[1..]);
      }
    }
  }

  /** Three Next presses: the handlers show step 4, the rendered page submits the initial record. */
  lemma RenderedThirdNextSubmits()
    ensures Run(InitialState, [Next, Next, Next]) == Editing(FormState(4, InitialForm))
    ensures RunAsRendered(InitialState, [Next, Next, Next]) == Completed(InitialForm)
  {
  }

  /** From the opening page: whatever the user does, step 4 never appears. */
  lemma RenderedQuestionnaireSkipsStepFour(es: seq<FormEvent>)
    ensures RunAsRendered(InitialState, es).Editing? ==> RunAsRendered(InitialState, es).state.step <= 3
    ensures RunAsRendered(InitialState, es).Completed? ==>
      var d := RunAsRendered(InitialState, es).answers;
      d.budgetConstraint == 5 && d.complianceRequirements == [] && d.dataSovereigntyNeeds == 5
  {
    RenderedRunSkipsStepFour(InitialState, es);
  }
}

=== FILE: bands.dfy ===
/**
 * Score bands that several views repeat with their own copies of the same
 * thresholds. Each view module proves that its copy agrees with the shared
 * definition here.
 */
module Bands {

  /** The four fit tiers selected from the composite score with 80/60/40. */
  datatype FitTier = NotRecommended | PartialFit | GoodFit | ExcellentFit

  function TierRank(t: FitTier): nat {
    match t
    case NotRecommended => 0
    case PartialFit => 1
    case GoodFit => 2
    case ExcellentFit => 3
  }

  function FitTierOf(score: real): (t: FitTier)
    ensures t == ExcellentFit <==> score >= 80.0
    ensures t == GoodFit <==> 60.0 <= score < 80.0
    ensures t == PartialFit <==> 40.0 <= score < 60.0
    ensures t == NotRecommended <==> score < 40.0
  {
    if score >= 80.0 then ExcellentFit
    else if score >= 60.0 then GoodFit
    else if score >= 40.0 then PartialFit
    else NotRecommended
  }

  /** A higher score never selects a lower tier. */
  lemma FitTierMonotone(a: real, b: real)
    requires a <= b
    ensures TierRank(FitTierOf(a)) <= TierRank(FitTierOf(b))
  {
  }

  /** Tier label as the report, the modern dashboard and the layout spell it. */
  function FitTitle(t: FitTier): string {
    match t
    case ExcellentFit => "Excellent Fit"
    case GoodFit => "Good Fit"
    case PartialFit => "Partial Fit"
    case NotRecommended => "Not Recommended"
  }

  /** Tier label as the results dashboard spells it. */
  function FitPhrase(t: FitTier): string {
    match t
    case ExcellentFit => "Excellent fit"
    case GoodFit => "Good fit"
    case PartialFit => "Partial fit"
    case NotRecommended => "Not recommended"
  }

  /** The three readiness bands selected with 70/50 (captions and next steps). */
  datatype ReadinessBand = NeedsImprovement | NeedsAttention | ReadyToImplement

  function ReadinessRank(b: ReadinessBand): nat {
    match b
    case NeedsImprovement => 0
    case NeedsAttention => 1
    case ReadyToImplement => 2
  }

  function ReadinessBandOf(score: real): (b: ReadinessBand)
    ensures b == ReadyToImplement <==> score >= 70.0
    ensures b == NeedsAttention <==> 50.0 <= score < 70.0
    ensures b == NeedsImprovement <==> score < 50.0
  {
    if score >= 70.0 then ReadyToImplement
    else if score >= 50.0 then NeedsAttention
    else NeedsImprovement
  }

  lemma ReadinessBandMonotone(a: real, b: real)
    requires a <= b
    ensures ReadinessRank(ReadinessBandOf(a)) <= ReadinessRank(ReadinessBandOf(b))
  {
  }

  /** The three colours every view draws with, and their hex codes. */
  datatype Colour = Green | Amber | Red

  function Hex(c: Colour): string {
    match c
    case Green => "#107c10"
    case Amber => "#ffb900"
    case Red => "#d13438"
  }

  /** A value placed against two thresholds `lo <= hi`. */
  datatype Level = Low | Middle | High

  function LevelOf(v: real, hi: real, lo: real): (l: Level)
    requires lo <= hi
    ensures l == High <==> v >= hi
    ensures l == Middle <==> lo <= v < hi
    ensures l == Low <==> v < lo
  {
    if v >= hi then High else if v >= lo then Middle else Low
  }

  /** Colouring where a high value is good (green). */
  function GoodWhenHigh(l: Level): Colour {
    match l
    case High => Green
    case Middle => Amber
    case Low => Red
  }

  /** Colouring where a high value is bad (red). */
  function BadWhenHigh(l: Level): Colour {
    match l
    case High => Red
    case Middle => Amber
    case Low => Green
  }

  /** The two colourings differ exactly by exchanging red and green. */
  lemma ColouringsMirror(l: Level)
    ensures GoodWhenHigh(l) == Amber <==> BadWhenHigh(l) == Amber
    ensures GoodWhenHigh(l) == Green <==> BadWhenHigh(l) == Red
    ensures GoodWhenHigh(l) == Red <==> BadWhenHigh(l) == Green
  {
  }

  /** The 70/40 traffic light the views use for the composite score. */
  function ScoreColour(score: real): (c: Colour)
    ensures c == GoodWhenHigh(LevelOf(score, 70.0, 40.0))
  {
    if score >= 70.0 then Green else if score >= 40.0 then Amber else Red
  }

  /** The word a view shows for a level. */
  function LevelWord(l: Level, low: string, middle: string, high: string): string {
    match l
    case Low => low
    case Middle => middle
    case High => high
  }
}

=== FILE: comparison.dfy ===
/**
 * ComparisonSection.tsx: base-plus-bonus scores for four alternative
 * platforms, the selected alternative, and the four-way verdict that
 * compares the composite score with it.
 */
module Comparison {
  import opened Numeric
  import opened Assessment
  import opened Wrappers

  datatype CompetitorScore = CompetitorScore(name: string, score: real, strengths: seq<string>, weaknesses: seq<string>)

  function AwsScore(d: AssessmentData): (r: real)
    ensures 65.0 <= r <= 100.0
  {
    var raw := 65.0
      + 15.0 * Indicator("AWS" in d.currentInfrastructure)
      + 10.0 * Indicator(d.dataWarehouseSolution == "AWS Redshift")
      + 5.0 * Indicator(d.realTimeNeeds > 7)
      + 10.0 * Indicator(|d.microsoftInvestments| < 2);
    Clamp(0.0, 100.0, raw)
  }

  function SnowflakeScore(d: AssessmentData): (r: real)
    ensures 70.0 <= r <= 100.0
  {
    var raw := 70.0
      + 10.0 * Indicator(d.dataVolume > 7)
      + 15.0 * Indicator(d.dataWarehouseSolution == "Snowflake")
      + 5.0 * Indicator(d.budgetConstraint > 7)
      + 5.0 * Indicator(|d.microsoftInvestments| < 3);
    Clamp(0.0, 100.0, raw)
  }

  /** The full data-type catalogue strings the Databricks rule matches. */
  const SemiStructured := "Semi-structured (JSON, XML)"
  const Unstructured := "Unstructured (documents, emails)"

  function DatabricksScore(d: AssessmentData): (r: real)
    ensures 60.0 <= r <= 95.0
  {
    var raw := 60.0
      + 10.0 * Indicator(SemiStructured in d.dataTypes)
      + 10.0 * Indicator(Unstructured in d.dataTypes)
      + 10.0 * Indicator(d.realTimeNeeds > 8)
      + 5.0 * Indicator(d.budgetConstraint > 6);
    Clamp(0.0, 100.0, raw)
  }

  function OnPremiseScore(d: AssessmentData): (r: real)
    ensures 30.0 <= r <= 80.0
  {
    var raw := 40.0
      + 15.0 * Indicator("On-premises servers" in d.currentInfrastructure)
      + 15.0 * Indicator(d.dataSovereigntyNeeds > 8)
      + 10.0 * Indicator(|d.complianceRequirements| > 3)
      - 10.0 * Indicator(d.budgetConstraint < 4);
    Clamp(0.0, 100.0, raw)
  }

  /**
   * AWS gains 10 points (up to the cap of 100) exactly when fewer than two
   * Microsoft investments are declared: two records that differ only in the
   * investment list score the same when both lists are on the same side of
   * 2, and 10 apart otherwise.
   */
  lemma AwsInvestmentRule(d: AssessmentData, mi: seq<string>)
    ensures var e := d.(microsoftInvestments := mi);
      (|d.microsoftInvestments| < 2 <==> |mi| < 2) ==> AwsScore(e) == AwsScore(d)
    ensures var e := d.(microsoftInvestments := mi);
      |d.microsoftInvestments| < 2 <= |mi| ==> AwsScore(d) == Min(100.0, AwsScore(e) + 10.0)
  {
  }

  /** On-Premise loses exactly 10 points when the budget rating is below 4. */
  lemma OnPremiseBudgetRule(d: AssessmentData, b: int)
    ensures var e := d.(budgetConstraint := b);
      (d.budgetConstraint < 4 <==> b < 4) ==> OnPremiseScore(e) == OnPremiseScore(d)
    ensures var e := d.(budgetConstraint := b);
      d.budgetConstraint < 4 <= b ==> OnPremiseScore(d) == OnPremiseScore(e) - 10.0
  {
  }

  /** The two Databricks data-type bonuses add 10 each, independently. */
  lemma DatabricksDataTypeRule(d: AssessmentData, ts: seq<string>)
    ensures var e := d.(dataTypes := ts);
      DatabricksScore(e) - DatabricksScore(d)
        == 10.0 * (Indicator(SemiStructured in ts) - Indicator(SemiStructured in d.dataTypes))
         + 10.0 * (Indicator(Unstructured in ts) - Indicator(Unstructured in d.dataTypes))
  {
  }

  const AwsStrengths := ["Comprehensive cloud ecosystem", "Strong market presence", "Wide range of specialized services", "Global infrastructure"]
  const AwsWeaknesses := ["Less integrated with Microsoft products", "Can require more specialized skills", "Potential higher costs for complex scenarios", "Less unified experience than Fabric"]
  const SnowflakeStrengths := ["Excellent data warehouse solution", "Cloud-agnostic deployment", "Separation of storage and compute", "Strong data sharing capabilities"]
  const SnowflakeWeaknesses := ["Less integrated with Microsoft products", "Not a comprehensive analytics platform", "Can be expensive at scale", "Limited native ETL capabilities"]
  const DatabricksStrengths := ["Excellent for complex data science", "Strong Spark-based processing", "Good for unstructured data", "Advanced ML capabilities"]
  const DatabricksWeaknesses := ["Steeper learning curve", "Can be more expensive", "Less integrated with Microsoft ecosystem", "Less comprehensive than Fabric"]
  const OnPremiseStrengths := ["Complete data sovereignty control", "Can be more cost-effective long-term", "No internet dependency", "Potential for higher security"]
  const OnPremiseWeaknesses := ["Higher upfront investment", "Maintenance overhead", "Scaling difficulties", "Less modern capabilities"]

  const CompetitorNames: seq<string> := ["AWS", "Snowflake", "Databricks", "On-Premise"]

  /** `calculateCompetitorScores`: four entries in a fixed order. */
  function CompetitorScores(d: AssessmentData): (cs: seq<CompetitorScore>)
    ensures |cs| == 4
    ensures forall i :: 0 <= i < 4 ==> cs[i].name == CompetitorNames[i]
    ensures cs[0].score == AwsScore(d) && cs[1].score == SnowflakeScore(d)
    ensures cs[2].score == DatabricksScore(d) && cs[3].score == OnPremiseScore(d)
    ensures forall i :: 0 <= i < 4 ==> 0.0 <= cs[i].score <= 100.0
    ensures forall i :: 0 <= i < 4 ==> |cs[i].strengths| == 4 && |cs[i].weaknesses| == 4
  {
    [ CompetitorScore("AWS", AwsScore(d), AwsStrengths, AwsWeaknesses),
      CompetitorScore("Snowflake", SnowflakeScore(d), SnowflakeStrengths, SnowflakeWeaknesses),
      CompetitorScore("Databricks", DatabricksScore(d), DatabricksStrengths, DatabricksWeaknesses),
      CompetitorScore("On-Premise", OnPremiseScore(d), OnPremiseStrengths, OnPremiseWeaknesses) ]
  }

  /** `Array.prototype.find` by name: the first entry whose name matches. */
  function FindByName(cs: seq<CompetitorScore>, name: string): (r: Option<nat>)
    ensures r.Some? ==> r.value < |cs| && cs[r.value].name == name
    ensures r.Some? ==> forall j :: 0 <= j < r.value ==> cs[j].name != name
    ensures r.None? <==> forall j :: 0 <= j < |cs| ==> cs[j].name != name
    decreases |cs|
  {
    if |cs| == 0 then None
    else if cs[0].name == name then Some(0)
    else match FindByName(cs[1..], name)
      case None => None
      case Some(i) => Some(i + 1)
  }

  /** `getSelectedCompetitor`: the entry with the selected name, else the first entry. */
  function SelectedCompetitor(cs: seq<CompetitorScore>, selected: string): (c: CompetitorScore)
    requires |cs| > 0
    ensures c in cs
    ensures (exists j :: 0 <= j < |cs| && cs[j].name == selected) ==> c.name == selected
    ensures (forall j :: 0 <= j < |cs| ==> cs[j].name != selected) ==> c == cs[0]
  {
    match FindByName(cs, selected)
    case Some(i) => cs[i]
    case None => cs[0]
  }

  /** Selecting one of the four names picks that alternative's own entry. */
  lemma SelectingKnownName(d: AssessmentData, i: nat)
    requires i < 4
    ensures SelectedCompetitor(CompetitorScores(d), CompetitorNames[i]) == CompetitorScores(d)[i]
  {
    var cs := CompetitorScores(d);
    var c := SelectedCompetitor(cs, CompetitorNames[i]);
    assert cs[i].name == CompetitorNames[i];
    assert c.name == CompetitorNames[i];
    var j :| 0 <= j < |cs| && cs[j] == c;
    assert CompetitorNames[j] == CompetitorNames[i];
  }

  // ------------------------------------------------------------ verdict

  datatype Verdict = FabricMuchBetter | FabricSomewhatBetter | CompetitorMuchBetter | Similar

  /** The branch `getComparisonRecommendation` takes for composite f and competitor s. */
  function VerdictOf(f: real, s: real): (v: Verdict)
    ensures v == FabricMuchBetter <==> f > s + 15.0
    ensures v == FabricSomewhatBetter <==> s < f <= s + 15.0
    ensures v == CompetitorMuchBetter <==> f + 15.0 < s
    ensures v == Similar <==> s - 15.0 <= f <= s
  {
    if f > s + 15.0 then FabricMuchBetter
    else if f > s then FabricSomewhatBetter
    else if f + 15.0 < s then CompetitorMuchBetter
    else Similar
  }

  /** The margins are strict: equal scores are "similar", a 15-point lead is only "somewhat better". */
  lemma VerdictMargins(s: real)
    ensures VerdictOf(s, s) == Similar
    ensures VerdictOf(s + 15.0, s) == FabricSomewhatBetter
    ensures VerdictOf(s - 15.0, s) == Similar
  {
  }

  /** Swapping the two scores turns a clear win into a clear loss and vice versa. */
  lemma VerdictSymmetry(f: real, s: real)
    ensures VerdictOf(f, s) == FabricMuchBetter <==> VerdictOf(s, f) == CompetitorMuchBetter
  {
  }

  function VerdictText(v: Verdict, name: string): string {
    match v
    case FabricMuchBetter =>
      "Microsoft Fabric appears to be a significantly better fit than " + name
        + " for your specific needs, primarily due to your existing Microsoft investments and requirements alignment."
    case FabricSomewhatBetter =>
      "Microsoft Fabric appears to be a somewhat better fit than " + name
        + " for your organization, though the difference is not dramatic. Consider evaluating specific capabilities that are most important to you."
    case CompetitorMuchBetter =>
      name + " appears to be a significantly better fit than Microsoft Fabric for your specific needs. Consider your specific use cases and long-term strategy when making a decision."
    case Similar =>
      "Both Microsoft Fabric and " + name
        + " could work for your organization with similar expected outcomes. Your specific priorities and use cases should guide your final decision."
  }

  /** `getComparisonRecommendation` for the stored answers, score and selection. */
  function ComparisonRecommendation(d: AssessmentData, fabricScore: real, selected: string): (text: string)
    ensures var c := SelectedCompetitor(CompetitorScores(d), selected);
      text == VerdictText(VerdictOf(fabricScore, c.score), c.name)
  {
    var c := SelectedCompetitor(CompetitorScores(d), selected);
    if fabricScore > c.score + 15.0 then VerdictText(FabricMuchBetter, c.name)
    else if fabricScore > c.score then VerdictText(FabricSomewhatBetter, c.name)
    else if fabricScore + 15.0 < c.score then VerdictText(CompetitorMuchBetter, c.name)
    else VerdictText(Similar, c.name)
  }
}

=== FILE: cross_checks.dfy ===
/**
 * What the scoring rules can see of a record the questionnaire can complete
 * with. The scorers test for exact strings; several of those strings are
 * not among the form's checkbox labels or drop-down values, so the rules
 * that test for them never fire on answers given through the form.
 */
module CrossChecks {
  import opened Assessment
  import opened AssessmentForm
  import Scores
  import App
  import ValueCalculator
  import ModernDashboard
  import DashboardLayout

  lemma Listed(d: AssessmentData, f: ListField, x: string)
    requires FormAnswers(d) && x in ListOf(d, f)
    ensures x in CatalogueOf(f)
  {
    assert FromCatalogue(ListOf(d, f), CatalogueOf(f));
  }

  /**
   * The data scorer rewards bare names ("Structured", ...); the form's
   * data-type boxes carry descriptions ("Structured (relational
   * databases)", ...), and none is "Real-time streaming".
   */
  lemma FormDataTypesEarnNoBonus(d: AssessmentData)
    requires FormAnswers(d)
    ensures Scores.DataTypeBonus(d.dataTypes) == 0.0
  {
    forall k | k in Scores.ScoredDataTypes ensures k !in d.dataTypes {
      if k in d.dataTypes {
        Listed(d, DataTypes, k);
        assert false;
      }
    }
  }

  /**
   * The governance scorer looks for "Azure Data Factory" and "Azure
   * Purview" among the infrastructure answers; the infrastructure boxes
   * offer neither (Data Factory is a Microsoft-product box).
   */
  lemma FormInfrastructureEarnsNoGovernanceBonus(d: AssessmentData)
    requires FormAnswers(d)
    ensures Scores.GovernanceInfraBonus(d.currentInfrastructure) == 0.0
  {
    forall k | k in Scores.GovernanceInfrastructure ensures k !in d.currentInfrastructure {
      if k in d.currentInfrastructure {
        Listed(d, Infrastructure, k);
        assert false;
      }
    }
  }

  /**
   * The scorers reward "Microsoft 365"; the form's box is labelled
   * "Office/Microsoft 365". So the composite's investment points stop at
   * 40 of 45 and the governance investment bonus at 3 of 4.
   */
  lemma FormNeverScoresMicrosoft365(d: AssessmentData)
    requires FormAnswers(d)
    ensures "Microsoft 365" !in d.microsoftInvestments
    ensures App.InvestmentPoints(d.microsoftInvestments) <= 40.0
    ensures Scores.GovernanceInvestmentBonus(d.microsoftInvestments) <= 3.0
  {
    if "Microsoft 365" in d.microsoftInvestments {
      Listed(d, Investments, "Microsoft 365");
      assert false;
    }
  }

  /**
   * Of the warehouse tiers the scorers know, the form reaches only some:
   * the top tier only through "Azure Synapse", the value calculator's
   * competitor tier only through "Snowflake", its legacy tier never.
   */
  lemma FormWarehouseTiers(d: AssessmentData)
    requires FormAnswers(d)
    ensures Scores.WarehouseBonus(d.dataWarehouseSolution) == 3.0 <==> d.dataWarehouseSolution == "Azure Synapse"
    ensures d.dataWarehouseSolution !in ValueCalculator.LegacyWarehouses
    ensures d.dataWarehouseSolution in ValueCalculator.CompetitorWarehouses <==> d.dataWarehouseSolution == "Snowflake"
  {
    assert SelectOf(d, Warehouse) in OptionsOf(Warehouse);
  }

  /** The BI tool earns two points only as "Excel": the reporting-services value is not offered. */
  lemma FormBiToolTiers(d: AssessmentData)
    requires FormAnswers(d)
    ensures Scores.BiToolBonus(d.businessIntelligenceTool) == 2.0 <==> d.businessIntelligenceTool == "Excel"
  {
    assert SelectOf(d, BiTool) in OptionsOf(BiTool);
  }

  // ------------------------------------------------------ list lengths

  function Elements(xs: seq<string>): set<string> {
    set x | x in xs
  }

  lemma {:induction false} ElementsCard(xs: seq<string>)
    ensures |Elements(xs)| <= |xs|
    ensures NoDup(xs) ==> |Elements(xs)| == |xs|
    decreases |xs|
  {
    if |xs| > 0 {
      ElementsCard(xs[1..]);
      NoDupTail(xs);
      assert Elements(xs) == {xs[0]} + Elements(xs[1..]) by {
        assert xs == [xs[0]] + xs[1..];
      }
      if xs[0] !in xs[1..] {
        assert xs[0] !in Elements(xs[1..]);
      }
    }
  }

  lemma {:induction false} SubsetCard(a: set<string>, b: set<string>)
    requires a <= b
    ensures |a| <= |b|
    decreases |a|
  {
    if a != {} {
      var x :| x in a;
      SubsetCard(a - {x}, b - {x});
    }
  }

  /** A duplicate-free list drawn from a catalogue is no longer than the catalogue. */
  lemma FromCatalogueBounded(xs: seq<string>, catalogue: seq<string>)
    requires FromCatalogue(xs, catalogue)
    ensures |xs| <= |catalogue|
  {
    ElementsCard(xs);
    ElementsCard(catalogue);
    SubsetCard(Elements(xs), Elements(catalogue));
  }

  /**
   * Every list the form holds has at most eight entries, so the
   * compliance bars of both dashboards stay within their track.
   */
  lemma FormListsBounded(d: AssessmentData)
    requires FormAnswers(d)
    ensures forall f :: |ListOf(d, f)| <= 8
    ensures ModernDashboard.MigrationBars(d)[2].width <= 100.0
    ensures DashboardLayout.KeyMetrics(d)[2].width <= 100.0
  {
    forall f ensures |ListOf(d, f)| <= 8 {
      FromCatalogueBounded(ListOf(d, f), CatalogueOf(f));
    }
    assert |ListOf(d, Compliance)| <= 8;
  }

  /** Running a non-empty sequence is one step, then the rest from the new state. */
  lemma RunUnfold(s: FormState, e: FormEvent, es: seq<FormEvent>)
    requires Step(s, e).Editing?
    ensures Run(s, [e] + es) == Run(Step(s, e).state, es)
  {
    assert ([e] + es)[1..] == es;
  }

  /** One tick per value, in order. */
  function Ticks(f: ListField, vs: seq<string>): (es: seq<FormEvent>)
    ensures |es| == |vs|
    ensures forall i :: 0 <= i < |vs| ==> es[i] == Check(f, vs[i])
  {
    if |vs| == 0 then [] else [Check(f, vs[0])] + Ticks(f, vs[1..])
  }

  lemma AppendOne(xs: seq<string>, vs: seq<string>)
    requires |vs| > 0
    ensures (xs + [vs[0]]) + vs[1..] == xs + vs
  {
    assert vs == [vs[0]] + vs[1..];
  }

  lemma TickStep(d: AssessmentData, v: string)
    requires v !in d.microsoftInvestments
    ensures Step(FormState(3, d), Check(Investments, v))
         == Editing(FormState(3, d.(microsoftInvestments := d.microsoftInvestments + [v])))
  {
    assert Offered(FormState(3, d), Check(Investments, v));
    assert Toggle(d.microsoftInvestments, v) == d.microsoftInvestments + [v];
  }

  /**
   * On the third step, ticking distinct products none of which is ticked
   * yet appends them in order.
   */
  lemma {:induction false} TicksAppend(d: AssessmentData, vs: seq<string>, rest: seq<FormEvent>)
    requires NoDup(vs)
    requires forall v :: v in vs ==> v !in d.microsoftInvestments
    ensures Run(FormState(3, d), Ticks(Investments, vs) + rest)
         == Run(FormState(3, d.(microsoftInvestments := d.microsoftInvestments + vs)), rest)
    decreases |vs|
  {
    if |vs| == 0 {
      assert Ticks(Investments, vs) + rest == rest;
      assert d.microsoftInvestments + vs == d.microsoftInvestments;
    } else {
      var v := vs[0];
      var d' := d.(microsoftInvestments := d.microsoftInvestments + [v]);
      var later := Ticks(Investments, vs[1..]) + rest;
      assert Ticks(Investments, vs) + rest == [Check(Investments, v)] + later;
      TickStep(d, v);
      RunUnfold(FormState(3, d), Check(Investments, v), later);
      NoDupTail(vs);
      forall w | w in vs[1..] ensures w !in d'.microsoftInvestments {
        assert w in vs;
      }
      TicksAppend(d', vs[1..], rest);
      AppendOne(d.microsoftInvestments, vs);
    }
  }

  const FiveProducts: seq<string> := ["Azure", "Power BI", "Office/Microsoft 365", "Dynamics 365", "SQL Server"]

  lemma FiveProductsDistinct()
    ensures NoDup(FiveProducts)
  {
    forall i, j | 0 <= i < j < 5 ensures FiveProducts[i] != FiveProducts[j] {
      assert |FiveProducts[i]| != |FiveProducts[j]|;
    }
  }

  /** Two Next actions from the start reach the third step with the initial record. */
  lemma TwoNexts(rest: seq<FormEvent>)
    ensures Run(InitialState, [Next, Next] + rest) == Run(FormState(3, InitialForm), rest)
  {
    assert [Next, Next] + rest == [Next] + ([Next] + rest);
    RunUnfold(InitialState, Next, [Next] + rest);
    RunUnfold(FormState(2, InitialForm), Next, rest);
  }

  /** From the third step, Next and Complete submit the record as it stands. */
  lemma NextThenSubmit(d: AssessmentData)
    ensures Run(FormState(3, d), [Next, Submit]) == Completed(d)
  {
    RunUnfold(FormState(3, d), Next, [Submit]);
  }

  /**
   * Five Microsoft products can be ticked on the third step, which is
   * where the landing dashboard's ecosystem bar, as written, overflows.
   */
  lemma EcosystemOverflowReachable()
    ensures var es := [Next, Next] + Ticks(Investments, FiveProducts) + [Next, Submit];
      Run(InitialState, es) == Completed(InitialForm.(microsoftInvestments := FiveProducts)) &&
      ModernDashboard.MigrationBars(InitialForm.(microsoftInvestments := FiveProducts))[3].width == 125.0
  {
    var tail := [Next, Submit];
    var ticks := Ticks(Investments, FiveProducts);
    assert [Next, Next] + ticks + tail == [Next, Next] + (ticks + tail);
    TwoNexts(ticks + tail);
    FiveProductsDistinct();
    TicksAppend(InitialForm, FiveProducts, tail);
    assert InitialForm.microsoftInvestments + FiveProducts == FiveProducts;
    NextThenSubmit(InitialForm.(microsoftInvestments := FiveProducts));
  }
}

=== FILE: dashboard_layout.dfy ===
/**
 * The dashboard frame (DashboardLayout.tsx): the sidebar's assessment
 * summary (industry, composite score with its tier, bar and caption), the
 * infrastructure and Microsoft-product chips, the key-metric bars and the
 * implementation estimate.
 *
 * The industry is not a field of `AssessmentData`; it is passed beside it
 * as an optional string, absent when no industry was chosen.
 */
module DashboardLayout {
  import opened Wrappers
  import opened Numeric
  import opened Assessment
  import opened Bands
  import ModernDashboard

  // ------------------------------------------------------------- industry

  predicate IsLowerAscii(c: char) {
    'a' <= c <= 'z'
  }

  /** `toUpperCase` on one character, for the ASCII letters the industry keys use. */
  function UpperAscii(c: char): (u: char)
    ensures !IsLowerAscii(u)
    ensures IsLowerAscii(c) ==> u as int == c as int - 32
    ensures !IsLowerAscii(c) ==> u == c
  {
    if IsLowerAscii(c) then (c as int - 32) as char else c
  }

  /** The first character upper-cased, the rest unchanged. */
  function Capitalise(s: string): (r: string)
    ensures |r| == |s|
    ensures |s| > 0 ==> r[0] == UpperAscii(s[0]) && r[1..] == s[1..]
  {
    if |s| == 0 then s else [UpperAscii(s[0])] + s[1..]
  }

  /** Capitalising twice is capitalising once. */
  lemma CapitaliseIdempotent(s: string)
    ensures Capitalise(Capitalise(s)) == Capitalise(s)
  {
  }

  /**
   * The industry line of the sidebar: absent when no industry (or the empty
   * one) was chosen, two keys spelled out, any other key capitalised.
   */
  function IndustryDisplay(industry: Option<string>): (r: Option<string>)
    ensures r.None? <==> industry.None? || industry.value == ""
    ensures r.Some? && industry.value == "financial-services" ==> r.value == "Financial Services"
    ensures r.Some? && industry.value == "public-sector" ==> r.value == "Public Sector"
    ensures r.Some? && industry.value != "financial-services" && industry.value != "public-sector" ==>
      r.value == Capitalise(industry.value)
    ensures r.Some? ==> |r.value| > 0 && !IsLowerAscii(r.value[0])
  {
    match industry
    case None => None
    case Some(s) =>
      if s == "" then None
      else if s == "financial-services" then Some("Financial Services")
      else if s == "public-sector" then Some("Public Sector")
      else Some(Capitalise(s))
  }

  // ---------------------------------------------------------- score panel

  function CaptionText(b: ReadinessBand): string {
    match b
    case ReadyToImplement => "Ready for Microsoft Fabric implementation"
    case NeedsAttention => "Some areas need attention"
    case NeedsImprovement => "Significant improvements needed"
  }

  /** The sidebar's score panel. */
  datatype ScorePanel = ScorePanel(
    shown: int, colour: Colour, heading: string, barWidth: real, caption: string)

  /**
   * The panel, present only when a composite score is known: the rounded
   * score and the bar in the 70/40 colour, the tier heading and the 70/50
   * readiness caption.
   */
  function ScorePanelFor(fabricScore: Option<real>): (p: Option<ScorePanel>)
    ensures p.Some? <==> fabricScore.Some?
    ensures p.Some? ==> p.value.colour == ScoreColour(fabricScore.value)
    ensures p.Some? ==> p.value.heading == FitTitle(FitTierOf(fabricScore.value))
    ensures p.Some? ==> p.value.caption == CaptionText(ReadinessBandOf(fabricScore.value))
    ensures p.Some? ==> p.value.barWidth == fabricScore.value
    ensures p.Some? ==> -0.5 < p.value.shown as real - fabricScore.value <= 0.5
    ensures p.Some? ==> (p.value.heading == "Excellent Fit" <==> fabricScore.value >= 80.0)
    ensures p.Some? ==> (p.value.caption == "Ready for Microsoft Fabric implementation" <==> fabricScore.value >= 70.0)
    ensures p.Some? && 0.0 <= fabricScore.value <= 100.0 ==> 0 <= p.value.shown <= 100
  {
    match fabricScore
    case None => None
    case Some(s) =>
      Some(ScorePanel(Round(s), ScoreColour(s), FitTitle(FitTierOf(s)), s, CaptionText(ReadinessBandOf(s))))
  }

  // ------------------------------------------------------------------ chips

  /** A list of chips, or the placeholder shown when the list is empty. */
  datatype Chips = ChipList(items: seq<string>) | Placeholder(text: string)

  function ChipsOr(items: seq<string>, placeholder: string): (c: Chips)
    ensures c.Placeholder? <==> |items| == 0
    ensures c.ChipList? ==> c.items == items
    ensures c.Placeholder? ==> c.text == placeholder
  {
    if |items| > 0 then ChipList(items) else Placeholder(placeholder)
  }

  function InfrastructureChips(d: AssessmentData): Chips {
    ChipsOr(d.currentInfrastructure, "No infrastructure specified")
  }

  function EcosystemChips(d: AssessmentData): Chips {
    ChipsOr(d.microsoftInvestments, "No Microsoft products")
  }

  // ---------------------------------------------------------- key metrics

  /** One key-metric bar: its width in percent and its colour. */
  datatype Metric = Metric(width: real, colour: Colour)

  /**
   * The three key metrics: Power BI use (high is good), data volume (high
   * is hard) and the compliance count out of eight (six or more is hard,
   * three or more is middling).
   */
  function KeyMetrics(d: AssessmentData): (ms: seq<Metric>)
    ensures |ms| == 3
    ensures ms[0].colour == GoodWhenHigh(LevelOf(d.powerBiUsage as real, 7.0, 4.0))
    ensures ms[1].colour == BadWhenHigh(LevelOf(d.dataVolume as real, 7.0, 4.0))
    ensures ms[2].colour == BadWhenHigh(LevelOf(|d.complianceRequirements| as real, 6.0, 3.0))
    ensures RatingsInScale(d) ==> 10.0 <= ms[0].width <= 100.0 && 10.0 <= ms[1].width <= 100.0
    ensures ms[2].width <= 100.0 <==> |d.complianceRequirements| <= 8
  {
    var n := |d.complianceRequirements|;
    [Metric(d.powerBiUsage as real / 10.0 * 100.0,
        if d.powerBiUsage >= 7 then Green else if d.powerBiUsage >= 4 then Amber else Red),
     Metric(d.dataVolume as real / 10.0 * 100.0,
        if d.dataVolume >= 7 then Red else if d.dataVolume >= 4 then Amber else Green),
     Metric(n as real / 8.0 * 100.0,
        if n >= 6 then Red else if n >= 3 then Amber else Green)]
  }

  /**
   * The sidebar and the landing dashboard colour the compliance count on
   * different scales: three requirements are amber here and green there;
   * from four on, and below three, they agree.
   */
  lemma ComplianceColoursDiffer(d: AssessmentData)
    ensures |d.complianceRequirements| == 3 ==>
      KeyMetrics(d)[2].colour == Amber &&
      ModernDashboard.MigrationBars(d)[2].colour == Green
    ensures |d.complianceRequirements| != 3 ==>
      KeyMetrics(d)[2].colour == ModernDashboard.MigrationBars(d)[2].colour
  {
  }

  // --------------------------------------------------------------- estimate

  /** The sidebar's implementation estimate: the landing dashboard's rule. */
  function ImplementationEstimate(d: AssessmentData): (t: ModernDashboard.Timeframe)
    ensures t == ModernDashboard.TimeframeEstimate(d)
  {
    if |d.microsoftInvestments| > 2 && d.powerBiUsage > 7 then ModernDashboard.ThreeToSixMonths
    else if |d.microsoftInvestments| > 0 then ModernDashboard.SixToNineMonths
    else ModernDashboard.NineToTwelveMonths
  }

  /**
   * The estimate's colour: green beyond two products, amber with one or
   * two, red with none.
   */
  function EstimateColour(d: AssessmentData): (c: Colour)
    ensures c == GoodWhenHigh(LevelOf(|d.microsoftInvestments| as real, 3.0, 1.0))
  {
    var n := |d.microsoftInvestments|;
    if n > 2 then Green else if n > 0 then Amber else Red
  }

  /**
   * The sidebar refines the landing dashboard's two-colour estimate: both
   * say green for the same answers, and the sidebar's red is the
   * nine-to-twelve-month estimate.
   */
  lemma EstimateColoursAgree(d: AssessmentData)
    ensures EstimateColour(d) == Green <==> ModernDashboard.TimeframeColour(d) == Green
    ensures EstimateColour(d) == Red <==> ImplementationEstimate(d) == ModernDashboard.NineToTwelveMonths
  {
  }
}

=== FILE: executive_summary.dfy ===
/**
 * ExecutiveSummary.tsx: the summary built from the four category scores —
 * overall percentage, readiness level, top strength and top opportunity,
 * ROI outlook and the strategic recommendations.
 */
module ExecutiveSummary {
  import opened Numeric
  import opened Scores

  function TotalScore(s: CategoryScores): (total: real)
    ensures ValidCategoryScores(s) ==> 0.0 <= total <= 40.0
  {
    s.data + s.analytics + s.governance + s.culture
  }

  /** `Math.round(total / 40 * 100)`. */
  function OverallPercentage(s: CategoryScores): (p: int)
    ensures ValidCategoryScores(s) ==> 0 <= p <= 100
  {
    RoundWithinWhenValid(s);
    Round(TotalScore(s) / 40.0 * 100.0)
  }

  lemma RoundWithinWhenValid(s: CategoryScores)
    ensures ValidCategoryScores(s) ==> 0 <= Round(TotalScore(s) / 40.0 * 100.0) <= 100
  {
    if ValidCategoryScores(s) {
      RoundWithin(TotalScore(s) / 40.0 * 100.0, 0, 100);
    }
  }

  datatype ReadinessLevel = LowReadiness | MediumReadiness | HighReadiness

  function ReadinessName(r: ReadinessLevel): string {
    match r
    case HighReadiness => "High"
    case MediumReadiness => "Medium"
    case LowReadiness => "Low"
  }

  function ReadinessColour(r: ReadinessLevel): string {
    match r
    case HighReadiness => "text-green-600"
    case MediumReadiness => "text-yellow-600"
    case LowReadiness => "text-red-600"
  }

  /** `getReadinessLevel`. */
  function GetReadinessLevel(percentage: int): (r: ReadinessLevel)
    ensures r == HighReadiness <==> percentage >= 80
    ensures r == MediumReadiness <==> 60 <= percentage < 80
    ensures r == LowReadiness <==> percentage < 60
  {
    if percentage >= 80 then HighReadiness
    else if percentage >= 60 then MediumReadiness
    else LowReadiness
  }

  // ------------------------------------------- strengths and opportunities

  /**
   * Index of the first element with the greatest score: what a stable sort
   * by descending score puts in front.
   */
  function FirstMax(xs: seq<real>): (i: nat)
    requires |xs| > 0
    ensures i < |xs|
    ensures forall j :: 0 <= j < |xs| ==> xs[j] <= xs[i]
    ensures forall j :: 0 <= j < i ==> xs[j] < xs[i]
    decreases |xs|
  {
    if |xs| == 1 then 0
    else
      var k := FirstMax(xs[1..]) + 1;
      if xs[0] >= xs[k] then 0 else k
  }

  /** Index of the first element with the least score: the front of a stable ascending sort. */
  function FirstMin(xs: seq<real>): (i: nat)
    requires |xs| > 0
    ensures i < |xs|
    ensures forall j :: 0 <= j < |xs| ==> xs[i] <= xs[j]
    ensures forall j :: 0 <= j < i ==> xs[i] < xs[j]
    decreases |xs|
  {
    if |xs| == 1 then 0
    else
      var k := FirstMin(xs[1..]) + 1;
      if xs[0] <= xs[k] then 0 else k
  }

  function ScoresInOrder(s: CategoryScores): (xs: seq<real>)
    ensures |xs| == 4
    ensures forall i :: 0 <= i < 4 ==> xs[i] == ScoreOf(s, CategoryOrder[i])
  {
    [s.data, s.analytics, s.governance, s.culture]
  }

  /** `getTopStrength`: a best-scoring category, ties going to the earliest listed. */
  function TopStrength(s: CategoryScores): (c: Category)
    ensures forall i :: 0 <= i < 4 ==> ScoreOf(s, CategoryOrder[i]) <= ScoreOf(s, c)
    ensures forall i :: 0 <= i < 4 && CategoryOrder[i] == c ==>
      forall j :: 0 <= j < i ==> ScoreOf(s, CategoryOrder[j]) < ScoreOf(s, c)
  {
    CategoryOrder[FirstMax(ScoresInOrder(s))]
  }

  /** `getTopOpportunity`: a worst-scoring category, ties going to the earliest listed. */
  function TopOpportunity(s: CategoryScores): (c: Category)
    ensures forall i :: 0 <= i < 4 ==> ScoreOf(s, c) <= ScoreOf(s, CategoryOrder[i])
    ensures forall i :: 0 <= i < 4 && CategoryOrder[i] == c ==>
      forall j :: 0 <= j < i ==> ScoreOf(s, c) < ScoreOf(s, CategoryOrder[j])
  {
    CategoryOrder[FirstMin(ScoresInOrder(s))]
  }

  /** When all four scores are equal the strength and the opportunity are both Data Integration. */
  lemma AllEqualPicksFirst(s: CategoryScores)
    requires s.data == s.analytics == s.governance == s.culture
    ensures TopStrength(s) == DataIntegration && TopOpportunity(s) == DataIntegration
  {
    var c := TopStrength(s);
    var i :| 0 <= i < 4 && CategoryOrder[i] == c;
    assert i == 0;
    var o := TopOpportunity(s);
    var k :| 0 <= k < 4 && CategoryOrder[k] == o;
    assert k == 0;
  }

  // --------------------------------------------------------- ROI outlook

  datatype RoiOutlook = HighRoi | ModerateRoi | LongTermRoi

  function RoiText(o: RoiOutlook): string {
    match o
    case HighRoi => "High ROI potential within 6-12 months"
    case ModerateRoi => "Moderate ROI potential within 12-18 months"
    case LongTermRoi => "Long-term ROI potential, 18+ months with proper implementation"
  }

  /** `getROIEstimate`: bands at 75 and 50 percent. */
  function GetRoiEstimate(percentage: int): (o: RoiOutlook)
    ensures o == HighRoi <==> percentage >= 75
    ensures o == ModerateRoi <==> 50 <= percentage < 75
    ensures o == LongTermRoi <==> percentage < 50
  {
    if percentage >= 75 then HighRoi
    else if percentage >= 50 then ModerateRoi
    else LongTermRoi
  }

  // ------------------------------------------------------ recommendations

  /** A strategic recommendation: improve one category, or keep up the current level. */
  datatype Advice = Improve(category: Category) | MaintainExcellence

  function AdviceText(a: Advice): string {
    match a
    case Improve(DataIntegration) => "Enhance data integration capabilities through Microsoft Fabric's Data Factory and lakehouse architecture"
    case Improve(AnalyticsCapabilities) => "Implement Power BI reporting and Synapse Analytics to strengthen analytical capabilities"
    case Improve(GovernanceFramework) => "Establish robust data governance utilizing Microsoft Purview integration with Fabric"
    case Improve(OrganizationalCulture) => "Develop a data culture transformation program with skill development tracks"
    case MaintainExcellence => "Focus on optimizing Microsoft Fabric implementation to maintain current excellence"
  }

  function IndexOf(c: Category): (i: nat)
    ensures i < 4 && CategoryOrder[i] == c
  {
    match c
    case DataIntegration => 0
    case AnalyticsCapabilities => 1
    case GovernanceFramework => 2
    case OrganizationalCulture => 3
  }

  function ImproveIfWeak(s: CategoryScores, c: Category): (r: seq<Advice>)
    ensures ScoreOf(s, c) < 7.0 ==> r == [Improve(c)]
    ensures ScoreOf(s, c) >= 7.0 ==> r == []
  {
    if ScoreOf(s, c) < 7.0 then [Improve(c)] else []
  }

  /** `getKeyRecommendations`. */
  function KeyRecommendations(s: CategoryScores): (r: seq<Advice>)
    ensures 1 <= |r| <= 4
    ensures forall c :: Improve(c) in r <==> ScoreOf(s, c) < 7.0
    ensures MaintainExcellence in r <==> forall c :: ScoreOf(s, c) >= 7.0
    ensures MaintainExcellence in r ==> r == [MaintainExcellence]
    ensures forall i, j :: 0 <= i < j < |r| && r[i].Improve? && r[j].Improve? ==>
      IndexOf(r[i].category) < IndexOf(r[j].category)
  {
    var recs := ImproveIfWeak(s, DataIntegration) + ImproveIfWeak(s, AnalyticsCapabilities)
      + ImproveIfWeak(s, GovernanceFramework) + ImproveIfWeak(s, OrganizationalCulture);
    WeakCategoriesInOrder(s);
    if |recs| > 0 then recs else [MaintainExcellence]
  }

  /** The improvement items, one per weak category, in category order. */
  lemma WeakCategoriesInOrder(s: CategoryScores)
    ensures var recs := ImproveIfWeak(s, DataIntegration) + ImproveIfWeak(s, AnalyticsCapabilities)
      + ImproveIfWeak(s, GovernanceFramework) + ImproveIfWeak(s, OrganizationalCulture);
      && |recs| <= 4
      && (forall c :: Improve(c) in recs <==> ScoreOf(s, c) < 7.0)
      && MaintainExcellence !in recs
      && (forall i, j :: 0 <= i < j < |recs| ==> IndexOf(recs[i].category) < IndexOf(recs[j].category))
  {
    var a, b := ImproveIfWeak(s, DataIntegration), ImproveIfWeak(s, AnalyticsCapabilities);
    var c, d := ImproveIfWeak(s, GovernanceFramework), ImproveIfWeak(s, OrganizationalCulture);
    var recs := a + b + c + d;
    assert forall x :: x in recs <==> x in a || x in b || x in c || x in d;
  }
}

=== FILE: modern_dashboard.dfy ===
/**
 * The landing dashboard shown after the questionnaire (ModernDashboard.tsx):
 * the composite-score gauge with its headline and caption, the per-category
 * risk table, and the implementation-complexity panel with its badges,
 * timeframe estimate and migration-factor bars.
 *
 * Colours are returned as `Bands.Colour`; the view draws them with
 * `Bands.Hex`.
 */
module ModernDashboard {
  import opened Numeric
  import opened Assessment
  import opened Bands
  import opened Scores

  // -------------------------------------------------------------- fallback

  /**
   * The scores the view falls back on when category scoring throws: half of
   * one rating per category. `Scores.CalculateScores` is total, so the view
   * always shows its result; the fallback is modelled for its own promise.
   */
  function FallbackScores(d: AssessmentData): (s: CategoryScores)
    ensures RatingsInScale(d) ==>
      0.5 <= s.data <= 5.0 && 0.5 <= s.analytics <= 5.0 &&
      0.0 <= s.governance <= 4.5 && 0.5 <= s.culture <= 5.0
    ensures RatingsInScale(d) ==> ValidCategoryScores(s)
  {
    CategoryScores(
      d.dataVolume as real / 2.0,
      d.powerBiUsage as real / 2.0,
      (10 - d.dataSovereigntyNeeds) as real / 2.0,
      d.timeToImplementation as real / 2.0)
  }

  /** Stronger sovereignty needs never raise the fallback governance score. */
  lemma FallbackGovernanceAntitone(d: AssessmentData, s: int)
    requires d.dataSovereigntyNeeds <= s
    ensures FallbackScores(d.(dataSovereigntyNeeds := s)).governance <= FallbackScores(d).governance
  {
  }

  // ------------------------------------------------------------ risk table

  /** Risk level of a category, from safest to most exposed. */
  datatype Risk = LowRisk | MediumRisk | HighRisk | ExtremeRisk

  function RiskRank(r: Risk): nat {
    match r
    case LowRisk => 0
    case MediumRisk => 1
    case HighRisk => 2
    case ExtremeRisk => 3
  }

  function RiskName(r: Risk): string {
    match r
    case LowRisk => "Low"
    case MediumRisk => "Medium"
    case HighRisk => "High"
    case ExtremeRisk => "Extreme"
  }

  /** The badge colour name; the badge classes use it unchanged. */
  function RiskColour(r: Risk): string {
    match r
    case LowRisk => "green"
    case MediumRisk => "yellow"
    case HighRisk => "orange"
    case ExtremeRisk => "red"
  }

  /** Quarter bands of the 0..10 category scale. */
  function RiskLevel(score: real): (r: Risk)
    ensures r == LowRisk <==> score >= 7.5
    ensures r == MediumRisk <==> 5.0 <= score < 7.5
    ensures r == HighRisk <==> 2.5 <= score < 5.0
    ensures r == ExtremeRisk <==> score < 2.5
  {
    if score >= 7.5 then LowRisk
    else if score >= 5.0 then MediumRisk
    else if score >= 2.5 then HighRisk
    else ExtremeRisk
  }

  /** A better score never means a higher risk. */
  lemma RiskAntitone(a: real, b: real)
    requires a <= b
    ensures RiskRank(RiskLevel(b)) <= RiskRank(RiskLevel(a))
  {
  }

  /** Each category's recommendation either asks to prioritise or to maintain. */
  datatype Advice = Prioritise | Maintain

  function AdviceFor(score: real): (a: Advice)
    ensures a == Prioritise <==> score < 6.0
  {
    if score < 6.0 then Prioritise else Maintain
  }

  function AdviceText(c: Category, a: Advice): string {
    match (c, a)
    case (DataIntegration, Prioritise) => "Prioritize data integration strategy and tools alignment"
    case (DataIntegration, Maintain) => "Maintain current data integration practices"
    case (AnalyticsCapabilities, Prioritise) => "Enhance analytics capabilities through training and tooling"
    case (AnalyticsCapabilities, Maintain) => "Continue developing advanced analytics use cases"
    case (GovernanceFramework, Prioritise) => "Establish stronger data governance policies and procedures"
    case (GovernanceFramework, Maintain) => "Maintain governance practices with regular reviews"
    case (OrganizationalCulture, Prioritise) => "Invest in data literacy programs and change management"
    case (OrganizationalCulture, Maintain) => "Continue fostering a data-driven culture"
  }

  /** One row of the risk table. */
  datatype RiskRow = RiskRow(category: Category, risk: Risk, score: real, advice: Advice)

  function RowFor(s: CategoryScores, c: Category): RiskRow {
    var v := ScoreOf(s, c);
    RiskRow(c, RiskLevel(v), v, AdviceFor(v))
  }

  /** The table: one row per category, in display order. */
  function RiskTable(s: CategoryScores): (t: seq<RiskRow>)
    ensures |t| == |CategoryOrder| == 4
    ensures forall i :: 0 <= i < |t| ==>
      t[i].category == CategoryOrder[i] && t[i].score == ScoreOf(s, CategoryOrder[i]) &&
      t[i].risk == RiskLevel(t[i].score) && t[i].advice == AdviceFor(t[i].score)
  {
    [RowFor(s, DataIntegration), RowFor(s, AnalyticsCapabilities),
     RowFor(s, GovernanceFramework), RowFor(s, OrganizationalCulture)]
  }

  /**
   * The risk badge and the recommendation never contradict each other:
   * a low-risk category is never told to prioritise, a high- or
   * extreme-risk one always is; only medium risk can go either way.
   */
  lemma RiskAndAdviceAgree(s: CategoryScores, i: int)
    requires 0 <= i < 4
    ensures RiskTable(s)[i].risk == LowRisk ==> RiskTable(s)[i].advice == Maintain
    ensures RiskRank(RiskTable(s)[i].risk) >= 2 ==> RiskTable(s)[i].advice == Prioritise
  {
  }

  // ------------------------------------------------------------------ gauge

  /** The headline under the gauge. */
  function HeadlineTier(score: real): (heading: string)
    ensures heading == FitTitle(FitTierOf(score))
  {
    if score >= 80.0 then "Excellent Fit"
    else if score >= 60.0 then "Good Fit"
    else if score >= 40.0 then "Partial Fit"
    else "Not Recommended"
  }

  function CaptionText(b: ReadinessBand): string {
    match b
    case ReadyToImplement => "Ready for Microsoft Fabric implementation"
    case NeedsAttention => "Some areas need attention before full implementation"
    case NeedsImprovement => "Significant improvements needed"
  }

  /** The caption under the headline, on the 70/50 readiness bands. */
  function Caption(score: real): (text: string)
    ensures text == CaptionText(ReadinessBandOf(score))
  {
    if score >= 70.0 then "Ready for Microsoft Fabric implementation"
    else if score >= 50.0 then "Some areas need attention before full implementation"
    else "Significant improvements needed"
  }

  /** The gauge ring's colour. */
  function GaugeColour(score: real): (c: Colour)
    ensures c == Green <==> score >= 70.0
    ensures c == Amber <==> 40.0 <= score < 70.0
    ensures c == Red <==> score < 40.0
  {
    ScoreColour(score)
  }

  /** The unfilled part of the 283-unit gauge ring. */
  function DashOffset(score: real): (r: real)
    ensures 0.0 <= score <= 100.0 ==> 0.0 <= r <= 283.0
    ensures r == 0.0 <==> score == 100.0
    ensures r == 283.0 <==> score == 0.0
  {
    283.0 - 283.0 * (score / 100.0)
  }

  /** A higher score fills more of the ring. */
  lemma DashOffsetAntitone(a: real, b: real)
    requires a <= b
    ensures DashOffset(b) <= DashOffset(a)
  {
  }

  // ---------------------------------------------------- complexity panel

  /**
   * `getComplexityColor`: red-amber-green on the 7/4 thresholds, with high
   * values bad unless `reversed`.
   */
  function ComplexityColour(value: real, reversed: bool): (c: Colour)
    ensures !reversed ==> c == BadWhenHigh(LevelOf(value, 7.0, 4.0))
    ensures reversed ==> c == GoodWhenHigh(LevelOf(value, 7.0, 4.0))
  {
    if reversed then
      (if value >= 7.0 then Green else if value >= 4.0 then Amber else Red)
    else
      (if value >= 7.0 then Red else if value >= 4.0 then Amber else Green)
  }

  /** Reversing exchanges red and green and leaves amber alone. */
  lemma ReversingSwapsRedAndGreen(value: real)
    ensures ComplexityColour(value, true) == Amber <==> ComplexityColour(value, false) == Amber
    ensures ComplexityColour(value, true) == Green <==> ComplexityColour(value, false) == Red
    ensures ComplexityColour(value, true) == Red <==> ComplexityColour(value, false) == Green
  {
    ColouringsMirror(LevelOf(value, 7.0, 4.0));
  }

  /** Badge words on a 7/4 scale. */
  function VolumeWord(v: int): (w: string)
    ensures w == LevelWord(LevelOf(v as real, 7.0, 4.0), "Low", "Medium", "High")
  {
    if v >= 7 then "High" else if v >= 4 then "Medium" else "Low"
  }

  function TimelineWord(t: int): (w: string)
    ensures w == LevelWord(LevelOf(t as real, 7.0, 4.0), "Urgent", "Moderate", "Flexible")
  {
    if t >= 7 then "Flexible" else if t >= 4 then "Moderate" else "Urgent"
  }

  function BudgetWord(b: int): (w: string)
    ensures w == LevelWord(LevelOf(b as real, 7.0, 4.0), "Limited", "Moderate", "Adequate")
  {
    if b >= 7 then "Adequate" else if b >= 4 then "Moderate" else "Limited"
  }

  /** The ecosystem badge's word, on a 3/1 scale of investment count. */
  function EcosystemWord(n: nat): (w: string)
    ensures w == LevelWord(LevelOf(n as real, 3.0, 1.0), "Limited", "Moderate", "Strong")
  {
    if n >= 3 then "Strong" else if n >= 1 then "Moderate" else "Limited"
  }

  /** A badge: its word and the colour of its background. */
  datatype Badge = Badge(word: string, colour: Colour)

  /**
   * The ecosystem badge's colour as written: the count coloured on the
   * 7/4 scale meant for ratings, not on the 3/1 scale its word uses.
   */
  function EcosystemBadgeColourAsWritten(n: nat): (c: Colour)
    ensures c == GoodWhenHigh(LevelOf(n as real, 7.0, 4.0))
  {
    ComplexityColour(n as real, true)
  }

  /** Three investments read "Strong" yet are drawn red. */
  lemma EcosystemBadgeDisagrees()
    ensures EcosystemWord(3) == "Strong" && EcosystemBadgeColourAsWritten(3) == Red
  {
  }

  /** The ecosystem badge's colour on the scale its own word uses. */
  function EcosystemBadgeColour(n: nat): (c: Colour)
    ensures c == Green <==> EcosystemWord(n) == "Strong"
    ensures c == Amber <==> EcosystemWord(n) == "Moderate"
    ensures c == Red <==> EcosystemWord(n) == "Limited"
  {
    GoodWhenHigh(LevelOf(n as real, 3.0, 1.0))
  }

  /**
   * The four badges of the panel, in display order, as the view draws them:
   * the technical-fit badge takes its word from the 3/1 scale but its colour
   * from the 7/4 one.
   */
  function ComplexityBadges(d: AssessmentData): (bs: seq<Badge>)
    ensures |bs| == 4
    ensures bs[0].colour == Red <==> d.dataVolume >= 7
    ensures bs[1].word == EcosystemWord(|d.microsoftInvestments|)
    ensures bs[1].colour == GoodWhenHigh(LevelOf(|d.microsoftInvestments| as real, 7.0, 4.0))
    ensures bs[1].colour == Green <==> |d.microsoftInvestments| >= 7
    ensures bs[2].colour == Green <==> d.timeToImplementation >= 7
    ensures bs[3].colour == Green <==> d.budgetConstraint >= 7
    ensures forall i :: 0 <= i < 4 && i != 1 ==> (bs[i].colour == Amber <==> bs[i].word in {"Medium", "Moderate"})
    ensures bs[0].colour == Red <==> bs[0].word == "High"
    ensures forall i :: 2 <= i < 4 ==> (bs[i].colour == Green <==> bs[i].word in {"Flexible", "Adequate"})
  {
    [Badge(VolumeWord(d.dataVolume), ComplexityColour(d.dataVolume as real, false)),
     Badge(EcosystemWord(|d.microsoftInvestments|), EcosystemBadgeColourAsWritten(|d.microsoftInvestments|)),
     Badge(TimelineWord(d.timeToImplementation), ComplexityColour(d.timeToImplementation as real, true)),
     Badge(BudgetWord(d.budgetConstraint), ComplexityColour(d.budgetConstraint as real, true))]
  }

  /**
   * The panel with the technical-fit badge coloured on its own word's
   * scale: every badge then agrees with its word, and nothing else changes.
   */
  function IntendedComplexityBadges(d: AssessmentData): (bs: seq<Badge>)
    ensures |bs| == 4
    ensures forall i :: 0 <= i < 4 && i != 1 ==> bs[i] == ComplexityBadges(d)[i]
    ensures bs[1].word == ComplexityBadges(d)[1].word
    ensures forall i :: 0 <= i < 4 ==> (bs[i].colour == Amber <==> bs[i].word in {"Medium", "Moderate"})
    ensures forall i :: 1 <= i < 4 ==> (bs[i].colour == Green <==> bs[i].word in {"Strong", "Flexible", "Adequate"})
  {
    var n := |d.microsoftInvestments|;
    ComplexityBadges(d)[1 := Badge(EcosystemWord(n), EcosystemBadgeColour(n))]
  }

  /** The two panels differ exactly when the investment count is 1..6. */
  lemma BadgePanelsDifferOnlyMidway(d: AssessmentData)
    ensures IntendedComplexityBadges(d) == ComplexityBadges(d) <==>
      |d.microsoftInvestments| == 0 || |d.microsoftInvestments| >= 7
  {
    var n := |d.microsoftInvestments|;
    if 1 <= n < 7 {
      assert IntendedComplexityBadges(d)[1] != ComplexityBadges(d)[1];
    } else {
      assert IntendedComplexityBadges(d)[1] == ComplexityBadges(d)[1];
    }
  }

  // -------------------------------------------------------------- timeframe

  datatype Timeframe = ThreeToSixMonths | SixToNineMonths | NineToTwelveMonths

  function TimeframeText(t: Timeframe): string {
    match t
    case ThreeToSixMonths => "3-6 months"
    case SixToNineMonths => "6-9 months"
    case NineToTwelveMonths => "9-12 months"
  }

  function TimeframeRank(t: Timeframe): nat {
    match t
    case ThreeToSixMonths => 0
    case SixToNineMonths => 1
    case NineToTwelveMonths => 2
  }

  /** The implementation timeframe estimate. */
  function TimeframeEstimate(d: AssessmentData): (t: Timeframe)
    ensures t == ThreeToSixMonths <==> |d.microsoftInvestments| > 2 && d.powerBiUsage > 7
    ensures t == SixToNineMonths <==>
      |d.microsoftInvestments| > 0 && !(|d.microsoftInvestments| > 2 && d.powerBiUsage > 7)
    ensures t == NineToTwelveMonths <==> |d.microsoftInvestments| == 0
  {
    if |d.microsoftInvestments| > 2 && d.powerBiUsage > 7 then ThreeToSixMonths
    else if |d.microsoftInvestments| > 0 then SixToNineMonths
    else NineToTwelveMonths
  }

  /** More Microsoft investments or more Power BI use never lengthen the estimate. */
  lemma TimeframeMonotone(d: AssessmentData, e: AssessmentData)
    requires |d.microsoftInvestments| <= |e.microsoftInvestments|
    requires d.powerBiUsage <= e.powerBiUsage
    ensures TimeframeRank(TimeframeEstimate(e)) <= TimeframeRank(TimeframeEstimate(d))
  {
  }

  /** The estimate's colour: green with more than two investments, else red. */
  function TimeframeColour(d: AssessmentData): (c: Colour)
    ensures c != Amber
    ensures c == Green <==> |d.microsoftInvestments| > 2
  {
    if |d.microsoftInvestments| > 2 then Green else Red
  }

  /** The shortest estimate is always drawn green. */
  lemma ShortestTimeframeIsGreen(d: AssessmentData)
    requires TimeframeEstimate(d) == ThreeToSixMonths
    ensures TimeframeColour(d) == Green
  {
  }

  // ------------------------------------------------- migration factor bars

  /** One bar: its width in percent and its colour. */
  datatype Bar = Bar(width: real, colour: Colour)

  /**
   * The compliance bar is coloured on 1.25 times the requirement count,
   * which on whole counts is the 6/4 scale.
   */
  function ComplianceBarColour(n: nat): (c: Colour)
    ensures c == BadWhenHigh(LevelOf(n as real, 6.0, 4.0))
  {
    ComplexityColour(n as real * 1.25, false)
  }

  /**
   * The ecosystem bar is coloured on ten minus 2.5 times the investment
   * count: green from three investments, amber at two, red below.
   */
  function EcosystemBarColour(n: nat): (c: Colour)
    ensures c == GoodWhenHigh(LevelOf(n as real, 3.0, 2.0))
  {
    ComplexityColour(10.0 - n as real * 2.5, false)
  }

  /** The ecosystem bar's width as written: the count out of four. */
  function EcosystemBarWidthAsWritten(n: nat): (w: real)
    ensures w >= 0.0
    ensures w <= 100.0 <==> n <= 4
  {
    n as real / 4.0 * 100.0
  }

  /** Five of the questionnaire's eight Microsoft products overflow the bar. */
  lemma EcosystemBarOverflows()
    ensures EcosystemBarWidthAsWritten(5) == 125.0
    ensures EcosystemBarWidthAsWritten(8) == 200.0
  {
  }

  /** The ecosystem bar's width, full from four investments on. */
  function EcosystemBarWidth(n: nat): (w: real)
    ensures 0.0 <= w <= 100.0
    ensures w == 100.0 <==> n >= 4
    ensures n <= 4 ==> w == EcosystemBarWidthAsWritten(n)
  {
    Min(100.0, n as real / 4.0 * 100.0)
  }

  /**
   * The four migration-factor bars, in display order, as the view draws
   * them: the ecosystem bar is the count out of four, uncapped.
   */
  function MigrationBars(d: AssessmentData): (bs: seq<Bar>)
    ensures |bs| == 4
    ensures RatingsInScale(d) ==> 10.0 <= bs[0].width <= 100.0 && 10.0 <= bs[1].width <= 100.0
    ensures |d.complianceRequirements| <= 8 ==> bs[2].width <= 100.0
    ensures 0.0 <= bs[3].width
    ensures bs[3].width <= 100.0 <==> |d.microsoftInvestments| <= 4
    ensures bs[0].colour == Red <==> d.dataVolume >= 7
    ensures bs[1].colour == Red <==> d.realTimeNeeds >= 7
    ensures bs[2].colour == Red <==> |d.complianceRequirements| >= 6
    ensures bs[3].colour == Green <==> |d.microsoftInvestments| >= 3
  {
    [Bar(d.dataVolume as real * 10.0, ComplexityColour(d.dataVolume as real, false)),
     Bar(d.realTimeNeeds as real * 10.0, ComplexityColour(d.realTimeNeeds as real, false)),
     Bar(|d.complianceRequirements| as real / 8.0 * 100.0, ComplianceBarColour(|d.complianceRequirements|)),
     Bar(EcosystemBarWidthAsWritten(|d.microsoftInvestments|), EcosystemBarColour(|d.microsoftInvestments|))]
  }

  /**
   * The bars with the ecosystem bar capped at its track: it never overflows,
   * and the panel is the drawn one whenever that bar fits.
   */
  function IntendedMigrationBars(d: AssessmentData): (bs: seq<Bar>)
    ensures |bs| == 4
    ensures forall i :: 0 <= i < 3 ==> bs[i] == MigrationBars(d)[i]
    ensures bs[3].colour == MigrationBars(d)[3].colour
    ensures 0.0 <= bs[3].width <= 100.0
    ensures bs[3].width == 100.0 <==> |d.microsoftInvestments| >= 4
    ensures bs == MigrationBars(d) <==> |d.microsoftInvestments| <= 4
  {
    var n := |d.microsoftInvestments|;
    var drawn := MigrationBars(d);
    var bs := drawn[3 := Bar(EcosystemBarWidth(n), EcosystemBarColour(n))];
    assert bs == drawn <==> bs[3] == drawn[3];
    bs
  }
}

=== FILE: numeric.dfy ===
/**
 * Exact real-valued stand-ins for the JavaScript `Math` helpers the scoring
 * code uses: `Math.min`, `Math.max`, the `Math.min(hi, Math.max(lo, x))`
 * clamp idiom and `Math.round`.
 */
module Numeric {

  function Min(a: real, b: real): (r: real)
    ensures r <= a && r <= b
    ensures r == a || r == b
  {
    if a <= b then a else b
  }

  function Max(a: real, b: real): (r: real)
    ensures a <= r && b <= r
    ensures r == a || r == b
  {
    if a >= b then a else b
  }

  /** `Math.min(hi, Math.max(lo, x))`: the nearest point of [lo, hi] to x. */
  function Clamp(lo: real, hi: real, x: real): (r: real)
    requires lo <= hi
    ensures lo <= r <= hi
    ensures lo <= x <= hi ==> r == x
    ensures x < lo ==> r == lo
    ensures hi < x ==> r == hi
  {
    Min(hi, Max(lo, x))
  }

  /** 1 when the condition holds, else 0: one rule's "+1 if ..." contribution. */
  function Indicator(c: bool): (r: real)
    ensures c <==> r == 1.0
    ensures !c <==> r == 0.0
  {
    if c then 1.0 else 0.0
  }

  /**
   * JavaScript `Math.round`: the nearest integer, halves rounded towards
   * positive infinity.
   */
  function Round(x: real): (r: int)
    ensures x - 0.5 < r as real <= x + 0.5
  {
    (x + 0.5).Floor
  }

  lemma ClampMonotone(lo: real, hi: real, x: real, y: real)
    requires lo <= hi
    requires x <= y
    ensures Clamp(lo, hi, x) <= Clamp(lo, hi, y)
  {
  }

  lemma RoundMonotone(x: real, y: real)
    requires x <= y
    ensures Round(x) <= Round(y)
  {
  }

  /** Rounding an integer-valued real gives that integer back. */
  lemma RoundOfInt(n: int)
    ensures Round(n as real) == n
  {
  }

  /** Rounding lands in lo..hi when the argument is within half a unit of that range. */
  lemma RoundWithin(x: real, lo: int, hi: int)
    requires lo as real - 0.5 <= x < hi as real + 0.5
    ensures lo <= Round(x) <= hi
  {
  }

  /** Multiplying by a non-negative factor keeps an inequality. */
  lemma MulRight(a: real, b: real, c: real)
    requires a <= b
    requires 0.0 <= c
    ensures a * c <= b * c
  {
    assert (b - a) * c >= 0.0;
    assert (b - a) * c == b * c - a * c;
  }

  /** Products of non-negative reals are monotone in both factors. */
  lemma MulMonotone(a: real, b: real, c: real, d: real)
    requires 0.0 <= a <= b
    requires 0.0 <= c <= d
    ensures 0.0 <= a * c <= b * d
  {
    MulRight(0.0, a, c);
    MulRight(a, b, c);
    MulRight(c, d, b);
    assert c * b == b * c;
    assert d * b == b * d;
  }
}

=== FILE: radar_chart.dfy ===
/**
 * RadarChart.tsx: the two extra radar axes (Microsoft ecosystem fit and
 * implementation readiness) plotted beside the four category scores.
 */
module RadarChart {
  import opened Numeric
  import opened Assessment
  import opened Scores

  function EcosystemRaw(d: AssessmentData): (r: real)
    ensures d.powerBiUsage as real / 2.0 <= r <= d.powerBiUsage as real / 2.0 + 5.0
  {
    d.powerBiUsage as real / 2.0
      + 2.0 * Indicator("Azure" in d.microsoftInvestments)
      + Indicator("Power BI" in d.microsoftInvestments)
      + Indicator("Microsoft 365" in d.microsoftInvestments)
      + Indicator("Dynamics 365" in d.microsoftInvestments)
  }

  /** `calculateMicrosoftEcosystemScore`. */
  function EcosystemScore(d: AssessmentData): (r: real)
    ensures 0.0 <= r <= 10.0
  {
    Clamp(0.0, 10.0, EcosystemRaw(d))
  }

  /** For usage in [0, 10] the raw sum is at most 5 + 5 and the clamp changes nothing. */
  lemma EcosystemClampInert(d: AssessmentData)
    requires 0 <= d.powerBiUsage <= 10
    ensures 0.0 <= EcosystemRaw(d) <= 10.0
    ensures EcosystemScore(d) == EcosystemRaw(d)
  {
  }

  /** Higher usage, or one more investment, never lowers the ecosystem score. */
  lemma EcosystemMonotone(d: AssessmentData, u: int, x: string)
    requires d.powerBiUsage <= u
    ensures EcosystemScore(d) <= EcosystemScore(d.(powerBiUsage := u))
    ensures EcosystemScore(d) <= EcosystemScore(d.(microsoftInvestments := d.microsoftInvestments + [x]))
  {
    ClampMonotone(0.0, 10.0, EcosystemRaw(d), EcosystemRaw(d.(powerBiUsage := u)));
    var e := d.(microsoftInvestments := d.microsoftInvestments + [x]);
    forall k | k in d.microsoftInvestments
      ensures k in e.microsoftInvestments
    {
      assert k in d.microsoftInvestments + [x];
    }
    ClampMonotone(0.0, 10.0, EcosystemRaw(d), EcosystemRaw(e));
  }

  function ReadinessRaw(d: AssessmentData): (r: real)
    ensures RatingsInScale(d) ==> -2.0 <= r <= 12.0
  {
    5.0
      + (d.budgetConstraint - 5) as real / 2.0
      + (d.timeToImplementation - 5) as real / 2.0
      - Indicator(d.dataVolume > 8)
      - Indicator(d.realTimeNeeds > 8)
      - Indicator(|d.complianceRequirements| > 3)
      + Indicator(|d.microsoftInvestments| >= 3)
      + Indicator(d.powerBiUsage >= 7)
  }

  /** `calculateImplementationReadinessScore`. */
  function ImplementationReadiness(d: AssessmentData): (r: real)
    ensures 0.0 <= r <= 10.0
  {
    Clamp(0.0, 10.0, ReadinessRaw(d))
  }

  /** More budget or more time never lowers readiness; more compliance never raises it. */
  lemma ReadinessMonotone(d: AssessmentData, b: int, t: int, c: seq<string>)
    requires d.budgetConstraint <= b
    requires d.timeToImplementation <= t
    requires |d.complianceRequirements| <= |c|
    ensures ImplementationReadiness(d) <= ImplementationReadiness(d.(budgetConstraint := b, timeToImplementation := t))
    ensures ImplementationReadiness(d.(complianceRequirements := c)) <= ImplementationReadiness(d)
  {
    ClampMonotone(0.0, 10.0, ReadinessRaw(d), ReadinessRaw(d.(budgetConstraint := b, timeToImplementation := t)));
    ClampMonotone(0.0, 10.0, ReadinessRaw(d.(complianceRequirements := c)), ReadinessRaw(d));
  }

  /** The six radar values: the four category scores, then the two axes above. */
  function RadarValues(d: AssessmentData): (vs: seq<real>)
    ensures |vs| == 6
    ensures forall i :: 0 <= i < 6 ==> 0.0 <= vs[i] <= 10.0
  {
    var s := CalculateScores(d);
    [s.data, s.analytics, s.governance, s.culture, EcosystemScore(d), ImplementationReadiness(d)]
  }
}

=== FILE: report.dfy ===
/**
 * ReportGenerator.tsx: the text the report selects from the composite score
 * and the answers.
 */
module Report {
  import opened Assessment
  import opened Bands

  /** The recommendation paragraph for each fit tier. */
  function RecommendationText(t: FitTier): string {
    match t
    case ExcellentFit => "Microsoft Fabric is an excellent fit for your organization. Your strong Microsoft ecosystem presence, data needs, and requirements align very well with Fabric's capabilities."
    case GoodFit => "Microsoft Fabric is a good fit for your organization. With some adjustments or additional considerations, Fabric could provide significant value to your data strategy."
    case PartialFit => "Microsoft Fabric might be suitable for parts of your data strategy, but you should carefully evaluate specific use cases. Consider a hybrid approach with other technologies."
    case NotRecommended => "Microsoft Fabric may not be the optimal solution for your current needs. Other data platforms might better align with your requirements and existing infrastructure."
  }

  /** `getRecommendation`, written with the view's own thresholds. */
  function GetRecommendation(score: real): (text: string)
    ensures text == RecommendationText(FitTierOf(score))
  {
    if score >= 80.0 then RecommendationText(ExcellentFit)
    else if score >= 60.0 then RecommendationText(GoodFit)
    else if score >= 40.0 then RecommendationText(PartialFit)
    else RecommendationText(NotRecommended)
  }

  /** The tier heading beside the score badge, with the view's own thresholds. */
  function TierLabel(score: real): (heading: string)
    ensures heading == FitTitle(FitTierOf(score))
  {
    if score >= 80.0 then "Excellent Fit"
    else if score >= 60.0 then "Good Fit"
    else if score >= 40.0 then "Partial Fit"
    else "Not Recommended"
  }

  /** Distinct tiers have distinct labels. */
  lemma TierTitlesDistinct(t: FitTier, u: FitTier)
    requires t != u
    ensures FitTitle(t) != FitTitle(u)
  {
    assert FitTitle(t)[0] != FitTitle(u)[0];
  }

  /** The tier the label names is the tier whose recommendation is shown. */
  lemma LabelMatchesRecommendation(score: real, t: FitTier)
    ensures TierLabel(score) == FitTitle(t) <==> FitTierOf(score) == t
    ensures TierLabel(score) == FitTitle(t) ==> GetRecommendation(score) == RecommendationText(t)
  {
    if FitTierOf(score) != t {
      TierTitlesDistinct(FitTierOf(score), t);
    }
  }

  const ReadySteps: seq<string> := [
    "Schedule a Microsoft Fabric demonstration with a Microsoft representative",
    "Identify a small pilot project to test Fabric capabilities",
    "Evaluate current data assets for migration to Microsoft Fabric",
    "Review Microsoft Fabric pricing and licensing options",
    "Develop a phased implementation plan"]

  const AttentionSteps: seq<string> := [
    "Conduct a deeper technical evaluation of Microsoft Fabric against specific use cases",
    "Compare Microsoft Fabric with alternative solutions for your priority scenarios",
    "Consider a hybrid approach using Fabric alongside existing solutions",
    "Identify skill gaps and training needs for potential Fabric adoption",
    "Evaluate total cost of ownership for a partial Fabric implementation"]

  const ImprovementSteps: seq<string> := [
    "Explore alternative data platforms that better match your requirements",
    "Consider Microsoft Fabric only for specific use cases where it excels",
    "Maintain awareness of Microsoft Fabric roadmap for future re-evaluation",
    "Evaluate how to better leverage your existing data platform investments",
    "Consider consulting with a data platform specialist for targeted recommendations"]

  /** The five next steps for each readiness band. */
  function NextStepsFor(b: ReadinessBand): (steps: seq<string>)
    ensures |steps| == 5
  {
    match b
    case ReadyToImplement => ReadySteps
    case NeedsAttention => AttentionSteps
    case NeedsImprovement => ImprovementSteps
  }

  /** `getNextSteps`: five steps chosen with 70/50. */
  function GetNextSteps(score: real): (steps: seq<string>)
    ensures |steps| == 5
    ensures steps == NextStepsFor(ReadinessBandOf(score))
  {
    if score >= 70.0 then NextStepsFor(ReadyToImplement)
    else if score >= 50.0 then NextStepsFor(NeedsAttention)
    else NextStepsFor(NeedsImprovement)
  }

  /** Raising the score never moves the recommendation or the next steps to a lower band. */
  lemma ReportBandsMonotone(a: real, b: real)
    requires a <= b
    ensures TierRank(FitTierOf(a)) <= TierRank(FitTierOf(b))
    ensures ReadinessRank(ReadinessBandOf(a)) <= ReadinessRank(ReadinessBandOf(b))
  {
    FitTierMonotone(a, b);
    ReadinessBandMonotone(a, b);
  }

  /** The background colour of the score badge. */
  function BadgeColour(score: real): (hex: string)
    ensures hex == Hex(ScoreColour(score))
  {
    if score >= 70.0 then "#107c10" else if score >= 40.0 then "#ffb900" else "#d13438"
  }

  // ------------------------------------------------------------ findings

  /** The canned finding paragraphs, keyed by what they say. */
  datatype Finding =
    | SignificantInvestments | LimitedInvestments
    | HighVolume | ModerateVolume | LowVolume
    | HighRealTime | LowRealTime
    | ExtensiveCompliance | ManageableCompliance

  function FindingText(f: Finding): string {
    match f
    case SignificantInvestments => "Your organization has significant Microsoft investments, which enhances the value proposition of Microsoft Fabric."
    case LimitedInvestments => "Your organization has limited Microsoft investments, which may reduce the immediate benefits of Microsoft Fabric."
    case HighVolume => "Your high data volume requirements align well with Microsoft Fabric's scalable architecture."
    case ModerateVolume => "Your moderate data volume needs can be effectively addressed by Microsoft Fabric."
    case LowVolume => "Your lower data volume needs might be served by simpler solutions than Microsoft Fabric."
    case HighRealTime => "Your significant real-time analytics requirements match well with Microsoft Fabric's streaming capabilities."
    case LowRealTime => "Your moderate to low real-time analytics needs can be met by Microsoft Fabric, though this may not be a decisive factor."
    case ExtensiveCompliance => "Your extensive compliance requirements can be addressed by Microsoft Fabric's governance capabilities."
    case ManageableCompliance => "Your compliance requirements appear manageable within Microsoft Fabric's framework."
  }

  const SovereigntyNoteText := " High data sovereignty needs may require careful consideration of Microsoft's regional datacenter availability."

  /** Which paragraph each finding card shows, and whether the sovereignty sentence follows the compliance one. */
  datatype Findings = Findings(ecosystem: Finding, volume: Finding, realTime: Finding, compliance: Finding, sovereigntyNote: bool)

  function KeyFindings(d: AssessmentData): (f: Findings)
    ensures f.ecosystem == SignificantInvestments <==> |d.microsoftInvestments| > 2
    ensures f.ecosystem == LimitedInvestments <==> |d.microsoftInvestments| <= 2
    ensures f.volume == HighVolume <==> d.dataVolume > 7
    ensures f.volume == ModerateVolume <==> 4 < d.dataVolume <= 7
    ensures f.volume == LowVolume <==> d.dataVolume <= 4
    ensures f.realTime == HighRealTime <==> d.realTimeNeeds > 7
    ensures f.realTime == LowRealTime <==> d.realTimeNeeds <= 7
    ensures f.compliance == ExtensiveCompliance <==> |d.complianceRequirements| > 3
    ensures f.compliance == ManageableCompliance <==> |d.complianceRequirements| <= 3
    ensures f.sovereigntyNote <==> d.dataSovereigntyNeeds > 8
  {
    Findings(
      if |d.microsoftInvestments| > 2 then SignificantInvestments else LimitedInvestments,
      if d.dataVolume > 7 then HighVolume else if d.dataVolume > 4 then ModerateVolume else LowVolume,
      if d.realTimeNeeds > 7 then HighRealTime else LowRealTime,
      if |d.complianceRequirements| > 3 then ExtensiveCompliance else ManageableCompliance,
      d.dataSovereigntyNeeds > 8)
  }

  /** The compliance card's text: its paragraph, then the sovereignty sentence when selected. */
  function ComplianceParagraph(f: Findings): (text: string)
    ensures |FindingText(f.compliance)| <= |text|
    ensures text[..|FindingText(f.compliance)|] == FindingText(f.compliance)
    ensures f.sovereigntyNote <==> |text| > |FindingText(f.compliance)|
  {
    FindingText(f.compliance) + (if f.sovereigntyNote then SovereigntyNoteText else "")
  }
}

=== FILE: results_dashboard.dfy ===
/**
 * The results view (ResultsDashboard.tsx): the half-doughnut score gauge,
 * the tier label and recommendation, the key-factor bullets and the
 * capability-alignment radar chart.
 */
module ResultsDashboard {
  import opened Numeric
  import opened Assessment
  import opened Bands
  import Report

  // ---------------------------------------------------------- radar chart

  /** The six values of "Your Organization" on the capability radar. */
  function EcosystemFit(d: AssessmentData): (r: real)
    ensures r <= 10.0
    ensures d.powerBiUsage >= 0 ==> r >= 0.0
    ensures |d.microsoftInvestments| >= 7 && d.powerBiUsage >= 0 ==> r == 10.0
  {
    Min(10.0, Count(d.microsoftInvestments) * 1.5 + d.powerBiUsage as real / 2.0)
  }

  /** Cost efficiency: the budget-constraint rating turned upside down. */
  function CostEfficiency(b: int): (r: real)
    ensures r >= 1.0
    ensures b <= 10 ==> r + b as real == 11.0
  {
    Max(1.0, (11 - b) as real)
  }

  /** A tighter budget rating always yields strictly lower cost efficiency on the scale. */
  lemma CostEfficiencyStrictlyAntitone(b: int, c: int)
    requires b < c <= 10
    ensures CostEfficiency(c) < CostEfficiency(b)
  {
  }

  function SecurityCompliance(d: AssessmentData): (r: real)
    ensures r <= 10.0
    ensures d.dataSovereigntyNeeds >= 0 ==> r >= 5.0
    ensures |d.complianceRequirements| >= 5 && d.dataSovereigntyNeeds >= 0 ==> r == 10.0
  {
    Min(10.0, 5.0 + Count(d.complianceRequirements) + d.dataSovereigntyNeeds as real / 2.0)
  }

  function IntegrationEase(d: AssessmentData): (r: real)
    ensures 2.0 <= r <= 10.0
    ensures r == 10.0 <==> |d.microsoftInvestments| >= 8
  {
    Min(10.0, Count(d.microsoftInvestments) + 2.0)
  }

  /** The six radar values, in axis order. */
  function CapabilityValues(d: AssessmentData): (v: seq<real>)
    ensures |v| == |FabricCapability| == 6
    ensures RatingsInScale(d) ==> forall i :: 0 <= i < |v| ==> 0.0 <= v[i] <= 10.0
    ensures RatingsInScale(d) ==> v[4] >= 5.5 && v[5] >= 2.0
    ensures v[1] == d.dataVolume as real && v[2] == d.realTimeNeeds as real
  {
    [EcosystemFit(d), d.dataVolume as real, d.realTimeNeeds as real,
     CostEfficiency(d.budgetConstraint), SecurityCompliance(d), IntegrationEase(d)]
  }

  /** The fixed "Microsoft Fabric Capability" series drawn beside it. */
  const FabricCapability: seq<real> := [10.0, 9.0, 9.0, 7.0, 9.0, 10.0]

  /**
   * More Microsoft investments never lower any radar value, and strictly
   * raise integration ease until it reaches the axis maximum.
   */
  lemma CapabilityMonotoneInInvestments(d: AssessmentData, x: string)
    ensures var e := d.(microsoftInvestments := d.microsoftInvestments + [x]);
      forall i :: 0 <= i < 6 ==> CapabilityValues(d)[i] <= CapabilityValues(e)[i]
    ensures var e := d.(microsoftInvestments := d.microsoftInvestments + [x]);
      |d.microsoftInvestments| < 8 ==> CapabilityValues(d)[5] < CapabilityValues(e)[5]
  {
  }

  // ---------------------------------------------------------------- gauge

  /** The doughnut's two segments: the score and the rest of 100. */
  function GaugeSegments(score: real): (seg: seq<real>)
    ensures |seg| == 2 && seg[0] + seg[1] == 100.0
    ensures seg[0] == score
    ensures 0.0 <= score <= 100.0 ==> 0.0 <= seg[0] && 0.0 <= seg[1]
  {
    [score, 100.0 - score]
  }

  /** The doughnut's fills: the score's 70/40 colour, then the grey remainder. */
  function GaugeFills(score: real): (fills: seq<string>)
    ensures |fills| == 2 && fills[1] == "#f3f3f3"
    ensures fills[0] == Hex(ScoreColour(score))
    ensures fills[0] == "#107c10" <==> score >= 70.0
    ensures fills[0] == "#ffb900" <==> 40.0 <= score < 70.0
    ensures fills[0] == "#d13438" <==> score < 40.0
  {
    [if score >= 70.0 then "#107c10" else if score >= 40.0 then "#ffb900" else "#d13438", "#f3f3f3"]
  }

  /** The number printed in the middle of the gauge. */
  function ShownScore(score: real): (n: int)
    ensures 0.0 <= score <= 100.0 ==> 0 <= n <= 100
    ensures -0.5 < n as real - score <= 0.5
  {
    Round(score)
  }

  /** The label under the gauge, in sentence case. */
  function ScoreLabel(score: real): (heading: string)
    ensures heading == FitPhrase(FitTierOf(score))
  {
    if score >= 80.0 then "Excellent fit"
    else if score >= 60.0 then "Good fit"
    else if score >= 40.0 then "Partial fit"
    else "Not recommended"
  }

  // ----------------------------------------------------------- key factors

  /** One bullet of the "Key Factors" list. */
  datatype KeyFactor =
    | ExistingInvestments(names: seq<string>)
    | StrongPowerBi
    | HighDataVolume
    | RealTimeNeeds
    | CostEfficiencies

  function FactorIf(c: bool, f: KeyFactor): (r: seq<KeyFactor>)
    ensures c <==> r == [f]
    ensures !c <==> r == []
  {
    if c then [f] else []
  }

  /** The bullets, in display order, each present exactly when its condition holds. */
  function KeyFactors(d: AssessmentData): (fs: seq<KeyFactor>)
    ensures ExistingInvestments(d.microsoftInvestments) in fs <==> |d.microsoftInvestments| > 0
    ensures StrongPowerBi in fs <==> d.powerBiUsage > 7
    ensures HighDataVolume in fs <==> d.dataVolume > 7
    ensures RealTimeNeeds in fs <==> d.realTimeNeeds > 7
    ensures CostEfficiencies in fs <==> d.budgetConstraint < 5
    ensures |fs| <= 5
    ensures |fs| > 0 && fs[0].ExistingInvestments? ==> |d.microsoftInvestments| > 0
  {
    FactorIf(|d.microsoftInvestments| > 0, ExistingInvestments(d.microsoftInvestments))
      + FactorIf(d.powerBiUsage > 7, StrongPowerBi)
      + FactorIf(d.dataVolume > 7, HighDataVolume)
      + FactorIf(d.realTimeNeeds > 7, RealTimeNeeds)
      + FactorIf(d.budgetConstraint < 5, CostEfficiencies)
  }

  /**
   * The label under the gauge and the recommendation beside it always speak
   * of the same tier; the recommendation is the report's for that score.
   */
  lemma LabelAgreesWithRecommendation(score: real, t: FitTier)
    ensures ScoreLabel(score) == FitPhrase(t) <==> FitTierOf(score) == t
    ensures ScoreLabel(score) == FitPhrase(t) ==> Report.GetRecommendation(score) == Report.RecommendationText(t)
  {
    if FitTierOf(score) != t {
      assert FitPhrase(FitTierOf(score))[0] != FitPhrase(t)[0];
    }
  }
}

=== FILE: scores.dfy ===
/**
 * The four category scorers of calculateScores.ts. Each adds up points from
 * the answer record and clamps the sum to [0, 10].
 */
module Scores {
  import opened Numeric
  import opened Assessment

  datatype CategoryScores = CategoryScores(data: real, analytics: real, governance: real, culture: real)

  predicate InUnitRange(x: real) {
    0.0 <= x <= 10.0
  }

  predicate ValidCategoryScores(s: CategoryScores) {
    InUnitRange(s.data) && InUnitRange(s.analytics) && InUnitRange(s.governance) && InUnitRange(s.culture)
  }

  // ---------------------------------------------------------------- data

  const TopTierWarehouses: set<string> := {"Azure Synapse", "Azure SQL Data Warehouse"}
  const UnspecifiedWarehouses: set<string> := {"None", ""}

  /** Points for the declared data warehouse. */
  function WarehouseBonus(w: string): (b: real)
    ensures b == 3.0 <==> w in TopTierWarehouses
    ensures b == 2.0 <==> w == "SQL Server"
    ensures b == 1.0 <==> w in UnspecifiedWarehouses
    ensures b == 0.0 <==> w !in TopTierWarehouses && w != "SQL Server" && w !in UnspecifiedWarehouses
  {
    if w == "Azure Synapse" || w == "Azure SQL Data Warehouse" then 3.0
    else if w == "SQL Server" then 2.0
    else if w == "None" || w == "" then 1.0
    else 0.0
  }

  /** The exact data-type strings the data scorer rewards, one point each. */
  const ScoredDataTypes: seq<string> := ["Structured", "Semi-structured", "Unstructured", "Real-time streaming"]

  function DataTypeBonus(ts: seq<string>): (b: real)
    ensures 0.0 <= b <= 4.0
    ensures b == 0.0 <==> forall k :: k in ScoredDataTypes ==> k !in ts
    ensures b == 4.0 <==> forall k :: k in ScoredDataTypes ==> k in ts
  {
    Indicator("Structured" in ts) + Indicator("Semi-structured" in ts)
      + Indicator("Unstructured" in ts) + Indicator("Real-time streaming" in ts)
  }

  function DataRaw(d: AssessmentData): real {
    WarehouseBonus(d.dataWarehouseSolution) + DataTypeBonus(d.dataTypes)
      + Min(2.0, d.dataVolume as real / 5.0) + Min(2.0, d.realTimeNeeds as real / 5.0)
  }

  function DataScore(d: AssessmentData): (r: real)
    ensures InUnitRange(r)
  {
    Clamp(0.0, 10.0, DataRaw(d))
  }

  // ----------------------------------------------------------- analytics

  function BiToolBonus(t: string): (b: real)
    ensures b == 3.0 <==> t == "Power BI"
    ensures b == 2.0 <==> t in {"SQL Server Reporting Services", "Excel"}
    ensures b == 1.0 <==> t == "None"
    ensures b == 0.0 <==> t !in {"Power BI", "SQL Server Reporting Services", "Excel", "None"}
  {
    if t == "Power BI" then 3.0
    else if t == "SQL Server Reporting Services" || t == "Excel" then 2.0
    else if t == "None" then 1.0
    else 0.0
  }

  /** `Math.min(3, usage / 3.33)`, shared by the analytics and culture scores. */
  function UsageTerm(u: int): real {
    Min(3.0, u as real / 3.33)
  }

  /** On integer usage the term reaches its cap 3 only from 10 upwards. */
  lemma UsageTermCap(u: int)
    ensures UsageTerm(u) == 3.0 <==> u >= 10
    ensures u <= 9 ==> UsageTerm(u) < 3.0
  {
    if u <= 9 {
      assert u as real / 3.33 <= 9.0 / 3.33;
    }
  }

  lemma UsageTermMonotone(u: int, v: int)
    requires u <= v
    ensures UsageTerm(u) <= UsageTerm(v)
  {
    assert u as real / 3.33 <= v as real / 3.33;
  }

  function AnalyticsInvestmentBonus(mi: seq<string>): real {
    2.0 * Indicator("Power BI" in mi) + Indicator("Azure" in mi) + Indicator("Dynamics 365" in mi)
  }

  function AnalyticsRaw(d: AssessmentData): real {
    BiToolBonus(d.businessIntelligenceTool) + UsageTerm(d.powerBiUsage)
      + AnalyticsInvestmentBonus(d.microsoftInvestments)
  }

  function AnalyticsScore(d: AssessmentData): (r: real)
    ensures InUnitRange(r)
  {
    Clamp(0.0, 10.0, AnalyticsRaw(d))
  }

  /** Raising Power BI usage never lowers the analytics score. */
  lemma AnalyticsMonotoneInUsage(d: AssessmentData, u: int)
    requires d.powerBiUsage <= u
    ensures AnalyticsScore(d) <= AnalyticsScore(d.(powerBiUsage := u))
  {
    UsageTermMonotone(d.powerBiUsage, u);
    ClampMonotone(0.0, 10.0, AnalyticsRaw(d), AnalyticsRaw(d.(powerBiUsage := u)));
  }

  // ---------------------------------------------------------- governance

  /** Points for the number of compliance requirements, as the source branches. */
  function ComplianceTerm(n: nat): real {
    if n == 0 then 2.0 else Max(0.0, 2.0 - n as real * 0.5)
  }

  /** The zero-requirement branch agrees with the general formula. */
  lemma ComplianceTermUniform(n: nat)
    ensures ComplianceTerm(n) == Max(0.0, 2.0 - n as real * 0.5)
    ensures 0.0 <= ComplianceTerm(n) <= 2.0
  {
  }

  lemma ComplianceTermAntitone(m: nat, n: nat)
    requires m <= n
    ensures ComplianceTerm(n) <= ComplianceTerm(m)
  {
    ComplianceTermUniform(m);
    ComplianceTermUniform(n);
  }

  function SovereigntyTerm(s: int): real {
    Min(3.0, (10 - s) as real / 3.33)
  }

  lemma SovereigntyTermAntitone(s: int, t: int)
    requires s <= t
    ensures SovereigntyTerm(t) <= SovereigntyTerm(s)
  {
    assert (10 - t) as real / 3.33 <= (10 - s) as real / 3.33;
  }

  function GovernanceInvestmentBonus(mi: seq<string>): real {
    2.0 * Indicator("Azure" in mi) + Indicator("Microsoft 365" in mi) + Indicator("Dynamics 365" in mi)
  }

  /** The infrastructure strings the governance scorer rewards. */
  const GovernanceInfrastructure: seq<string> := ["Azure Data Factory", "Azure Purview"]

  function GovernanceInfraBonus(infra: seq<string>): (b: real)
    ensures b == 0.0 <==> forall k :: k in GovernanceInfrastructure ==> k !in infra
  {
    Indicator("Azure Data Factory" in infra) + Indicator("Azure Purview" in infra)
  }

  function GovernanceRaw(d: AssessmentData): real {
    ComplianceTerm(|d.complianceRequirements|) + SovereigntyTerm(d.dataSovereigntyNeeds)
      + GovernanceInvestmentBonus(d.microsoftInvestments) + GovernanceInfraBonus(d.currentInfrastructure)
  }

  function GovernanceScore(d: AssessmentData): (r: real)
    ensures InUnitRange(r)
  {
    Clamp(0.0, 10.0, GovernanceRaw(d))
  }

  /** More compliance requirements never raise the governance score. */
  lemma GovernanceAntitoneInCompliance(d: AssessmentData, c: seq<string>)
    requires |d.complianceRequirements| <= |c|
    ensures GovernanceScore(d.(complianceRequirements := c)) <= GovernanceScore(d)
  {
    ComplianceTermAntitone(|d.complianceRequirements|, |c|);
    ClampMonotone(0.0, 10.0, GovernanceRaw(d.(complianceRequirements := c)), GovernanceRaw(d));
  }

  /** Stronger sovereignty needs never raise the governance score. */
  lemma GovernanceAntitoneInSovereignty(d: AssessmentData, s: int)
    requires d.dataSovereigntyNeeds <= s
    ensures GovernanceScore(d.(dataSovereigntyNeeds := s)) <= GovernanceScore(d)
  {
    SovereigntyTermAntitone(d.dataSovereigntyNeeds, s);
    ClampMonotone(0.0, 10.0, GovernanceRaw(d.(dataSovereigntyNeeds := s)), GovernanceRaw(d));
  }

  // ------------------------------------------------------------- culture

  function CultureRaw(d: AssessmentData): real {
    Min(3.0, Count(d.microsoftInvestments)) + UsageTerm(d.powerBiUsage)
      + Min(2.0, d.timeToImplementation as real / 5.0) + Min(2.0, d.budgetConstraint as real / 5.0)
  }

  function CultureScore(d: AssessmentData): (r: real)
    ensures InUnitRange(r)
  {
    Clamp(0.0, 10.0, CultureRaw(d))
  }

  /**
   * With non-negative ratings the culture sum already lies in [0, 10]
   * (at most 3 + 3 + 2 + 2), so the clamp never changes it.
   */
  lemma CultureClampInert(d: AssessmentData)
    requires d.powerBiUsage >= 0 && d.timeToImplementation >= 0 && d.budgetConstraint >= 0
    ensures 0.0 <= CultureRaw(d) <= 10.0
    ensures CultureScore(d) == CultureRaw(d)
  {
    assert 0.0 <= d.powerBiUsage as real / 3.33;
  }

  /**
   * The culture score never falls when the investment count, Power BI usage,
   * time to implementation or budget rise.
   */
  lemma CultureMonotone(d: AssessmentData, e: AssessmentData)
    requires |d.microsoftInvestments| <= |e.microsoftInvestments|
    requires d.powerBiUsage <= e.powerBiUsage
    requires d.timeToImplementation <= e.timeToImplementation
    requires d.budgetConstraint <= e.budgetConstraint
    ensures CultureScore(d) <= CultureScore(e)
  {
    UsageTermMonotone(d.powerBiUsage, e.powerBiUsage);
    assert d.timeToImplementation as real / 5.0 <= e.timeToImplementation as real / 5.0;
    assert d.budgetConstraint as real / 5.0 <= e.budgetConstraint as real / 5.0;
    ClampMonotone(0.0, 10.0, CultureRaw(d), CultureRaw(e));
  }

  // ---------------------------------------------------------- categories

  /** The four categories, named as the views display them. */
  datatype Category = DataIntegration | AnalyticsCapabilities | GovernanceFramework | OrganizationalCulture

  function CategoryName(c: Category): string {
    match c
    case DataIntegration => "Data Integration"
    case AnalyticsCapabilities => "Analytics Capabilities"
    case GovernanceFramework => "Governance Framework"
    case OrganizationalCulture => "Organizational Culture"
  }

  /** The categories in the order the summary lists them. */
  const CategoryOrder: seq<Category> := [DataIntegration, AnalyticsCapabilities, GovernanceFramework, OrganizationalCulture]

  function ScoreOf(s: CategoryScores, c: Category): real {
    match c
    case DataIntegration => s.data
    case AnalyticsCapabilities => s.analytics
    case GovernanceFramework => s.governance
    case OrganizationalCulture => s.culture
  }

  // --------------------------------------------------------- all four

  function CalculateScores(d: AssessmentData): (r: CategoryScores)
    ensures ValidCategoryScores(r)
  {
    CategoryScores(DataScore(d), AnalyticsScore(d), GovernanceScore(d), CultureScore(d))
  }

  /** Two records with the same ratings and the same list contents, in any order. */
  predicate SameUpToOrder(a: AssessmentData, b: AssessmentData) {
    && multiset(a.currentInfrastructure) == multiset(b.currentInfrastructure)
    && multiset(a.dataTypes) == multiset(b.dataTypes)
    && multiset(a.microsoftInvestments) == multiset(b.microsoftInvestments)
    && multiset(a.complianceRequirements) == multiset(b.complianceRequirements)
    && a.dataWarehouseSolution == b.dataWarehouseSolution
    && a.businessIntelligenceTool == b.businessIntelligenceTool
    && a.dataVolume == b.dataVolume
    && a.realTimeNeeds == b.realTimeNeeds
    && a.powerBiUsage == b.powerBiUsage
    && a.budgetConstraint == b.budgetConstraint
    && a.timeToImplementation == b.timeToImplementation
    && a.dataSovereigntyNeeds == b.dataSovereigntyNeeds
  }

  lemma PermutationKeepsMembers(s: seq<string>, t: seq<string>)
    requires multiset(s) == multiset(t)
    ensures |s| == |t|
    ensures forall x :: x in s <==> x in t
  {
    assert |s| == |multiset(s)| == |multiset(t)| == |t|;
    forall x
      ensures x in s <==> x in t
    {
      assert x in s <==> x in multiset(s);
      assert x in t <==> x in multiset(t);
    }
  }

  lemma DataIgnoresListOrder(a: AssessmentData, b: AssessmentData)
    requires SameUpToOrder(a, b)
    ensures DataScore(a) == DataScore(b)
  {
    PermutationKeepsMembers(a.dataTypes, b.dataTypes);
    assert DataTypeBonus(a.dataTypes) == DataTypeBonus(b.dataTypes);
  }

  lemma AnalyticsIgnoresListOrder(a: AssessmentData, b: AssessmentData)
    requires SameUpToOrder(a, b)
    ensures AnalyticsScore(a) == AnalyticsScore(b)
  {
    PermutationKeepsMembers(a.microsoftInvestments, b.microsoftInvestments);
    assert AnalyticsInvestmentBonus(a.microsoftInvestments) == AnalyticsInvestmentBonus(b.microsoftInvestments);
  }

  lemma GovernanceIgnoresListOrder(a: AssessmentData, b: AssessmentData)
    requires SameUpToOrder(a, b)
    ensures GovernanceScore(a) == GovernanceScore(b)
  {
    PermutationKeepsMembers(a.currentInfrastructure, b.currentInfrastructure);
    PermutationKeepsMembers(a.microsoftInvestments, b.microsoftInvestments);
    PermutationKeepsMembers(a.complianceRequirements, b.complianceRequirements);
    assert GovernanceInvestmentBonus(a.microsoftInvestments) == GovernanceInvestmentBonus(b.microsoftInvestments);
    assert GovernanceInfraBonus(a.currentInfrastructure) == GovernanceInfraBonus(b.currentInfrastructure);
  }

  lemma CultureIgnoresListOrder(a: AssessmentData, b: AssessmentData)
    requires SameUpToOrder(a, b)
    ensures CultureScore(a) == CultureScore(b)
  {
    PermutationKeepsMembers(a.microsoftInvestments, b.microsoftInvestments);
  }

  /** Reordering any list answer leaves all four category scores unchanged. */
  lemma ScoresIgnoreListOrder(a: AssessmentData, b: AssessmentData)
    requires SameUpToOrder(a, b)
    ensures CalculateScores(a) == CalculateScores(b)
  {
    DataIgnoresListOrder(a, b);
    AnalyticsIgnoresListOrder(a, b);
    GovernanceIgnoresListOrder(a, b);
    CultureIgnoresListOrder(a, b);
  }
}

=== FILE: value_calculator.dfy ===
/**
 * ValueCalculator.tsx: business-value projections from the answers, the
 * composite score, an optional industry key and three user parameters.
 * `calculateValueProposition` is modelled as a pure function returning the
 * metrics record instead of storing it.
 */
module ValueCalculator {
  import opened Numeric
  import opened Assessment
  import opened Wrappers

  // ------------------------------------------------- industry multipliers

  datatype Multipliers = Multipliers(costSavings: real, timeToValue: real, productivity: real)

  const General: Multipliers := Multipliers(1.0, 1.0, 1.0)

  const IndustryMultipliers: map<string, Multipliers> := map[
    "financial-services" := Multipliers(1.2, 0.9, 1.1),
    "healthcare" := Multipliers(1.15, 1.1, 1.25),
    "manufacturing" := Multipliers(1.1, 1.0, 1.2),
    "retail" := Multipliers(1.25, 0.9, 1.15),
    "public-sector" := Multipliers(0.9, 1.3, 1.05),
    "energy" := Multipliers(1.15, 1.1, 1.1),
    "general" := General
  ]

  /** The ranges every row of the table lies in. */
  predicate TableRange(m: Multipliers) {
    && 0.9 <= m.costSavings <= 1.25
    && 0.9 <= m.timeToValue <= 1.3
    && 1.0 <= m.productivity <= 1.25
  }

  /**
   * `industryMultipliers[industry || 'general'] || industryMultipliers.general`:
   * an absent, empty or unknown key selects the general row.
   */
  function MultiplierFor(industry: Option<string>): (m: Multipliers)
    ensures TableRange(m)
    ensures industry.Some? && industry.value in IndustryMultipliers ==> m == IndustryMultipliers[industry.value]
    ensures industry.None? || industry.value !in IndustryMultipliers ==> m == General
  {
    var key := if industry.None? || industry.value == "" then "general" else industry.value;
    if key in IndustryMultipliers then IndustryMultipliers[key] else IndustryMultipliers["general"]
  }

  // ------------------------------------------------------ user parameters

  datatype ValueParams = ValueParams(organizationSize: int, currentAnnualCosts: int, averageHourlyRate: int)

  const InitialParams: ValueParams := ValueParams(500, 500000, 75)

  /**
   * `Math.max(1, parseInt(text) || 0)`: `parsed` is the integer `parseInt`
   * read, or None when it read nothing (NaN).
   */
  function ClampParam(parsed: Option<int>): (r: int)
    ensures r >= 1
    ensures parsed.Some? && parsed.value >= 1 ==> r == parsed.value
    ensures parsed.None? || parsed.value < 1 ==> r == 1
  {
    var v := parsed.GetOr(0);
    if v >= 1 then v else 1
  }

  predicate ValidParams(p: ValueParams) {
    p.organizationSize >= 1 && p.currentAnnualCosts >= 1 && p.averageHourlyRate >= 1
  }

  /** The initial parameters are valid, and so is whatever the three inputs store. */
  lemma ParamsAlwaysValid(size: Option<int>, costs: Option<int>, rate: Option<int>)
    ensures ValidParams(InitialParams)
    ensures ValidParams(ValueParams(ClampParam(size), ClampParam(costs), ClampParam(rate)))
  {
  }

  // --------------------------------------------------------- cost savings

  const LegacyWarehouses: set<string> := {"Legacy System", "Legacy Data Warehouse"}
  const CompetitorWarehouses: set<string> := {"Competitor Platform", "Snowflake", "Databricks"}

  /** Base savings rate by warehouse tier, then +0.05 each for Azure and Power BI. */
  function CostSavingsPercent(d: AssessmentData, score: real): (pct: real)
    ensures 0.0 <= score <= 100.0 && d.dataWarehouseSolution in LegacyWarehouses ==> 0.25 <= pct <= 0.60
    ensures 0.0 <= score <= 100.0 && d.dataWarehouseSolution !in LegacyWarehouses ==> pct <= 0.45
    ensures 0.0 <= score <= 100.0 && d.dataWarehouseSolution in CompetitorWarehouses ==>
      0.15 <= pct <= 0.45
    ensures 0.0 <= score <= 100.0 && d.dataWarehouseSolution !in LegacyWarehouses + CompetitorWarehouses ==>
      0.10 <= pct <= 0.30
  {
    var base :=
      if d.dataWarehouseSolution in LegacyWarehouses then 0.25 + score / 400.0
      else if d.dataWarehouseSolution in CompetitorWarehouses then 0.15 + score / 500.0
      else 0.10 + score / 1000.0;
    base + 0.05 * Indicator("Azure" in d.microsoftInvestments) + 0.05 * Indicator("Power BI" in d.microsoftInvestments)
  }

  lemma CostSavingsPercentRange(d: AssessmentData, score: real)
    requires 0.0 <= score <= 100.0
    ensures 0.10 <= CostSavingsPercent(d, score) <= 0.60
  {
  }

  function CostSavings(costs: int, pct: real, m: Multipliers): (savings: int)
    ensures -0.5 < savings as real - costs as real * pct * m.costSavings <= 0.5
  {
    Round(costs as real * pct * m.costSavings)
  }

  /** With a rate of at most 0.6 and a multiplier of at most 1.25 the savings never exceed the costs. */
  lemma CostSavingsBounds(costs: int, pct: real, m: Multipliers)
    requires costs >= 0
    requires 0.0 <= pct <= 0.6
    requires 0.0 <= m.costSavings <= 1.25
    ensures 0 <= CostSavings(costs, pct, m) <= costs
  {
    var c := costs as real;
    var rate := pct * m.costSavings;
    MulMonotone(pct, 0.6, m.costSavings, 1.25);
    assert 0.0 <= rate <= 0.75;
    MulMonotone(c, c, rate, 0.75);
    var x := c * pct * m.costSavings;
    assert x == c * rate;
    assert c * rate <= c * 0.75;
    assert x <= c;
    RoundWithin(x, 0, costs);
  }

  // --------------------------------------------------------- time to value

  /** Months before the industry multiplier: 12, faster with Microsoft assets, slower with complexity. */
  function BaseMonths(d: AssessmentData): (months: int)
    ensures 7 <= months <= 17
  {
    12
      - 2 * (if "Azure" in d.microsoftInvestments then 1 else 0)
      - (if "Power BI" in d.microsoftInvestments then 1 else 0)
      - 2 * (if d.powerBiUsage > 7 then 1 else 0)
      + 2 * (if d.dataVolume > 8 then 1 else 0)
      + (if d.realTimeNeeds > 8 then 1 else 0)
      + 2 * (if |d.complianceRequirements| > 3 then 1 else 0)
  }

  function TimeToValue(d: AssessmentData, m: Multipliers): (months: int)
    ensures months >= 3
    ensures Round(BaseMonths(d) as real * m.timeToValue) < 3 ==> months == 3
    ensures Round(BaseMonths(d) as real * m.timeToValue) >= 3 ==> months == Round(BaseMonths(d) as real * m.timeToValue)
  {
    var t := Round(BaseMonths(d) as real * m.timeToValue);
    if t >= 3 then t else 3
  }

  /** With the table's multipliers the estimate lies in 6..22 months. */
  lemma TimeToValueTableRange(d: AssessmentData, industry: Option<string>)
    ensures 6 <= TimeToValue(d, MultiplierFor(industry)) <= 22
  {
    var m := MultiplierFor(industry);
    var b := BaseMonths(d) as real;
    MulMonotone(7.0, b, 0.9, m.timeToValue);
    MulMonotone(b, 17.0, m.timeToValue, 1.3);
    RoundWithin(b * m.timeToValue, 6, 22);
  }

  // ------------------------------------------------------- productivity

  /** Hours saved per knowledge worker per year, by composite score. */
  function HoursPerEmployee(score: real): (h: real)
    ensures h == 52.0 <==> score >= 80.0
    ensures h == 26.0 <==> 60.0 <= score < 80.0
    ensures h == 13.0 <==> score < 60.0
  {
    if score >= 80.0 then 52.0 else if score >= 60.0 then 26.0 else 13.0
  }

  const KnowledgeWorkerShare: real := 0.3

  function ProductivityHours(size: int, score: real, m: Multipliers): (hours: int)
    ensures -0.5 < hours as real - size as real * 0.3 * HoursPerEmployee(score) * m.productivity <= 0.5
  {
    Round(size as real * KnowledgeWorkerShare * HoursPerEmployee(score) * m.productivity)
  }

  /** More employees or a higher score never lower the productivity hours. */
  lemma ProductivityMonotone(size: int, size': int, score: real, score': real, m: Multipliers)
    requires 0 <= size <= size'
    requires score <= score'
    requires m.productivity >= 0.0
    ensures 0 <= ProductivityHours(size, score, m) <= ProductivityHours(size', score', m)
  {
    var h := HoursPerEmployee(score);
    var h' := HoursPerEmployee(score');
    assert h <= h';
    var a := size as real * KnowledgeWorkerShare;
    var a' := size' as real * KnowledgeWorkerShare;
    assert 0.0 <= a <= a';
    MulMonotone(a, a', h, h');
    MulMonotone(a * h, a' * h', m.productivity, m.productivity);
    RoundMonotone(0.0, a * h * m.productivity);
    RoundMonotone(a * h * m.productivity, a' * h' * m.productivity);
  }

  // ---------------------------------------------------------------- ROI

  /** Implementation at half the current costs, then 80% of the remaining costs for three years. */
  function ThreeYearCost(costs: int, savings: int): (total: real)
    ensures savings == costs ==> total == costs as real * 0.5
    ensures savings < costs ==> total > costs as real * 0.5
  {
    costs as real * 0.5 + (costs - savings) as real * 0.8 * 3.0
  }

  lemma ThreeYearCostPositive(costs: int, savings: int)
    requires costs >= 1
    requires savings <= costs
    ensures ThreeYearCost(costs, savings) >= costs as real * 0.5 > 0.0
  {
  }

  /**
   * Three-year ROI in percent. The division is guarded: a denominator of
   * zero or less is reported as a failure.
   */
  function ThreeYearROI(costs: int, savings: int, hours: int, rate: int): (r: Result<int, string>)
    ensures r.Failure? <==> ThreeYearCost(costs, savings) <= 0.0
    ensures costs >= 1 && savings <= costs ==> r.Success?
  {
    var cost := ThreeYearCost(costs, savings);
    var benefit := savings as real * 3.0 + (hours * rate) as real * 3.0;
    if cost <= 0.0 then Failure("three-year cost is not positive")
    else Success(Round((benefit - cost) / cost * 100.0))
  }

  // ------------------------------------------------- risk and benefit

  function RiskReduction(d: AssessmentData): (r: int)
    ensures 5 <= r <= 10
  {
    var raw := 5
      + (if |d.complianceRequirements| > 2 then 1 else 0)
      + (if d.dataSovereigntyNeeds > 7 then 1 else 0)
      + (if "Azure" in d.microsoftInvestments then 1 else 0)
      + (if "Microsoft 365" in d.microsoftInvestments then 1 else 0)
      + (if d.powerBiUsage > 7 then 1 else 0);
    if raw <= 10 then raw else 10
  }

  function DataDrivenBenefitScore(score: real): (r: int)
    ensures 1 <= r <= 10
  {
    var b := Round(score / 20.0 + 2.0);
    if b < 1 then 1 else if b > 10 then 10 else b
  }

  /** For a composite in [0, 100] the benefit score lies in 2..7 and never falls as the score rises. */
  lemma BenefitScoreRangeAndMonotone(score: real, score': real)
    requires 0.0 <= score <= score' <= 100.0
    ensures 2 <= DataDrivenBenefitScore(score) <= DataDrivenBenefitScore(score') <= 7
  {
    RoundWithin(score / 20.0 + 2.0, 2, 7);
    RoundWithin(score' / 20.0 + 2.0, 2, 7);
    RoundMonotone(score / 20.0 + 2.0, score' / 20.0 + 2.0);
  }

  // ---------------------------------------------------------- all metrics

  datatype ValueMetrics = ValueMetrics(
    costSavings: int,
    timeToValue: int,
    annualProductivityHours: int,
    threeYearROI: int,
    riskReduction: int,
    dataDrivenBenefitScore: int
  )

  /** `calculateValueProposition`. */
  function CalculateValueProposition(d: AssessmentData, industry: Option<string>, score: real, p: ValueParams)
    : (r: Result<ValueMetrics, string>)
    ensures 0.0 <= score <= 100.0 && ValidParams(p) ==> r.Success?
    ensures r.Success? && 0.0 <= score <= 100.0 && ValidParams(p) ==>
      && 0 <= r.value.costSavings <= p.currentAnnualCosts
      && 6 <= r.value.timeToValue <= 22
      && r.value.annualProductivityHours >= 0
      && 5 <= r.value.riskReduction <= 10
      && 2 <= r.value.dataDrivenBenefitScore <= 7
  {
    if 0.0 <= score <= 100.0 && ValidParams(p) then
      ValuePropositionSucceeds(d, industry, score, p);
      Compute(d, industry, score, p)
    else
      Compute(d, industry, score, p)
  }

  function Compute(d: AssessmentData, industry: Option<string>, score: real, p: ValueParams)
    : Result<ValueMetrics, string>
  {
    var m := MultiplierFor(industry);
    var savings := CostSavings(p.currentAnnualCosts, CostSavingsPercent(d, score), m);
    var months := TimeToValue(d, m);
    var hours := ProductivityHours(p.organizationSize, score, m);
    match ThreeYearROI(p.currentAnnualCosts, savings, hours, p.averageHourlyRate)
    case Failure(e) => Failure(e)
    case Success(roi) =>
      Success(ValueMetrics(savings, months, hours, roi, RiskReduction(d), DataDrivenBenefitScore(score)))
  }

  /** The pieces the full calculation relies on, for a score in range and valid parameters. */
  lemma ValuePropositionSucceeds(d: AssessmentData, industry: Option<string>, score: real, p: ValueParams)
    requires 0.0 <= score <= 100.0 && ValidParams(p)
    ensures var m := MultiplierFor(industry);
      var savings := CostSavings(p.currentAnnualCosts, CostSavingsPercent(d, score), m);
      && 0 <= savings <= p.currentAnnualCosts
      && ThreeYearROI(p.currentAnnualCosts, savings, ProductivityHours(p.organizationSize, score, m), p.averageHourlyRate).Success?
      && 6 <= TimeToValue(d, m) <= 22
      && 0 <= ProductivityHours(p.organizationSize, score, m)
      && 2 <= DataDrivenBenefitScore(score) <= 7
  {
    var m := MultiplierFor(industry);
    CostSavingsPercentRange(d, score);
    CostSavingsBounds(p.currentAnnualCosts, CostSavingsPercent(d, score), m);
    TimeToValueTableRange(d, industry);
    ProductivityMonotone(0, p.organizationSize, score, score, m);
    BenefitScoreRangeAndMonotone(score, score);
  }

  /** `getCostOfInaction`: a year's savings plus a year's productivity value, 0 before any metrics exist. */
  function CostOfInaction(metrics: Option<ValueMetrics>, rate: int): (r: int)
    ensures metrics.None? ==> r == 0
    ensures metrics.Some? && metrics.value.costSavings >= 0 && metrics.value.annualProductivityHours >= 0 && rate >= 0 ==> r >= 0
  {
    match metrics
    case None => 0
    case Some(v) => v.costSavings + v.annualProductivityHours * rate
  }
}

=== FILE: wrappers.dfy ===
/** Option and Result datatypes, used where the model needs an error path. */
module Wrappers {

  datatype Option<+T> = None | Some(value: T) {

    /** Returns the value held in Some, or `default` when None. */
    function GetOr(default: T): T {
      match this
      case Some(v) => v
      case None => default
    }
  }

  /** Either a computed value or an error message. */
  datatype Result<+R, +E> = Success(value: R) | Failure(error: E)
}
